=== FILE: README.md ===
# Conga storefront: a Dafny model of its client-side decisions

Conga is a web shop for Mobile Legends diamond top-ups. A player browses
the diamond packages and the weekly pass, fills in a purchase form with
their game and server ids and a mobile-wallet payment reference, and
submits a purchase request. They then follow it in their purchase
history. An admin approves or rejects pending requests in the admin
panel. The backend is a separate service; this model covers the React
client's decisions about what to send, what to show and when.

The model is split into modules that follow the client's files:

- `Values` (values.dfy): the JavaScript scalars the client handles and the
  coercions it relies on:
  - truthiness, `??`, and loose `==`;
  - template-literal rendering;
  - `String(n)` and `Number(s)` on integers;
  - `padStart`.
- `Records` (records.dfy): users, catalog entries, purchase orders, and
  the weekly-pass sentinel (amount `0` or `"0"`).
- `Api` (api.dfy): the request URLs and JSON bodies of the backend client.
  It also includes small decoders (path, query, fields, property lookup) so
  that contracts can say what the server reads back.
- `History` (history.dfy): the purchase-history page:
  - price resolution;
  - weekly-pass classification;
  - the status default;
  - voucher codes;
  - the status filter, its counts and the list of filter buttons.
- `Storefront` (storefront.dfy): the home page:
  - the catalog split into weekly pass and sorted diamond packages;
  - the buy click;
  - the purchase form as a state machine driven by events, including the
    submission guard.
- `Moderation` (moderation.dfy): the admin panel:
  - loads and the status filter;
  - the Pending-only Approve/Reject controls;
  - the `loading` flag around a status update;
  - the reload after a successful update.
- `Routing` (routing.dfy): hash-to-view mapping, access gating per view,
  and login/logout.

## How the model is built

Component state is an immutable record, and each handler is a pure
transition. A backend call is a boundary: the step that makes the call
returns the request it sends. A later step receives the outcome, which is
either the reply or the thrown error. Timers are separate steps. For
example, `Storefront.ClearAfterSuccess` is the two-second clear after a
successful purchase.

Where the system's documented behaviour and its code differ, the model
follows the code:

- **No grace period, and the handler does not check `isSubmitting`.**
  `isSubmitting` is lowered in `finally` as soon as the call settles. The
  only protection against a double submission is the disabled Confirm
  button. `Storefront.NoGracePeriod` and `Storefront.DoubleSubmissionTrace`
  show the same request sent twice.
- **Error replies count as success.** A reply carrying an error field is
  treated as success, both by the purchase form and by the admin panel.
- **No client-side username filter or catalog validation.** Neither
  exists in the code.

## Model

| member | source | states |
|---|---|---|
| Values.PadStart | src/components/PurchaseHistory.jsx:150 | the result has length max(width, len), ends with the input, and is padded only with the pad character |
| Values.LooseEqSymmetric | src/components/PurchaseHistory.jsx:96 | loose equality is symmetric, so the order of the operands in the catalog match does not matter |
| Values.NumberLooselyEqualsItsString | src/components/PurchaseHistory.jsx:96 | a number and its decimal string are loosely equal, so an amount serialised as text still matches its catalog entry |
| Values.NumberToStringRoundTrip | src/components/PurchaseHistory.jsx:150 | reading back the decimal rendering of any integer gives the integer |
| Api.DiamondPricesUrl | src/api/backendAPI.js:20-28 | the URL's path is the prices endpoint and its query reads back as the game/server query: both names, the game name alone, or none without a game name |
| Api.GetDiamondPrices | src/api/backendAPI.js:20-28 | a GET whose path is the prices endpoint and whose query is the game/server query |
| Api.ServerNameAloneIsDropped | src/api/backendAPI.js:21-27 | without a truthy game name the URL is the bare endpoint, whatever the server name |
| Api.PriceQueryRoundTrip | src/api/backendAPI.js:22-23 | with both names and no '&' in either, the query string splits at '&' into exactly game_name=G and server_name=S, in that order |
| Api.UnencodedGameNameForgesServerFilter | src/api/backendAPI.js:23 | since values are not encoded, a game name "G&server_name=S" alone gives the same URL as game G on server S |
| Api.BuyDiamonds | src/api/backendAPI.js:31-43 | the body has exactly the keys userId, packageId, gameId, serverId, paymentNumber, paymentName, each read back as the matching positional argument; every other key reads as undefined |
| Api.BuyDiamondsOmitsPaymentMethod | src/api/backendAPI.js:35-42 | the buy body carries no paymentMethod property |
| Api.SerializedReadsTheSame | src/api/backendAPI.js:35-42 | in a body with distinct keys, dropping the undefined properties (as JSON.stringify does) changes no value the server reads |
| Api.GetPurchaseHistory | src/api/backendAPI.js:45-46 | path is the history endpoint and the query is user_id= followed by the unencoded id |
| Api.GetAllPurchases | src/api/backendAPI.js:49-50 | the query is status=Pending when the status is undefined, and otherwise status= followed by the interpolated argument (null included) |
| Api.UpdatePurchaseStatus | src/api/backendAPI.js:52-57 | the body has exactly the keys purchase_id, status, admin_notes, carrying the three arguments unchanged |
| Api.GetDiamondPricesAdmin | src/api/backendAPI.js:59-60 | a GET of the admin prices endpoint with no query |
| Api.FilterPurchases | src/api/backendAPI.js:83-84 | path is the filter endpoint and the query is username= followed by the unencoded name |
| History.FindByAmount | src/components/PurchaseHistory.jsx:96 | the index found is the first catalog entry loosely equal to the amount; none is found only when no entry matches |
| History.PurchasePrice | src/components/PurchaseHistory.jsx:85-104 | a stored (non-nullish) price is returned verbatim; otherwise the first loosely matching catalog price; 0 when the amount is nullish or nothing matches |
| History.PriceComesFromOrderOrCatalog | src/components/PurchaseHistory.jsx:85-104 | every resolved price is the stored price, some catalog price, or 0 |
| History.FirstMatchIsStable | src/components/PurchaseHistory.jsx:96-99 | once the catalog has a match, appending entries never changes the resolved price |
| History.CatalogFallbackScenario | src/components/PurchaseHistory.jsx:94-99 | an order for 100 with no stored price gets the 100-diamond catalog price, also when the amount is the string "100" in diamond_amount |
| History.StoredPriceScenario | src/components/PurchaseHistory.jsx:89-91 | a stored price wins over a catalog match with a different price |
| History.IsWeeklyPass | src/components/PurchaseHistory.jsx:142-145 | the `amount` field decides unless it is null or undefined, when `diamond_amount` does; only the number 0 or the text "0" marks the pass |
| History.PurchaseType | src/components/PurchaseHistory.jsx:122-128 | "Weekly Pass" exactly for a pass, "Diamonds" exactly for every other order |
| History.AmountLabel | src/components/PurchaseHistory.jsx:106-112 | "Weekly Pass" exactly for a pass; "N/A" exactly for any other falsy amount; otherwise the amount's text followed by the gem |
| History.ClassificationAgrees | src/components/PurchaseHistory.jsx:106-145 | amount label, purchase type and the pass flag agree: "Weekly Pass" exactly for the sentinel, type "Diamonds" for every other amount |
| History.ZeroAmountIsNotReplaced | src/components/PurchaseHistory.jsx:107-110 | an amount of 0 is not replaced by diamond_amount (`??` is not `||`), so the order is the weekly pass |
| History.SentinelIsStrictButMatchIsLoose | src/components/PurchaseHistory.jsx:142-145 | the amount "00" is not a pass, yet it loosely equals the pass's catalog amount 0 |
| History.StatusOf | src/components/PurchaseHistory.jsx:138-140 | the displayed status is never empty: a non-empty stored status is kept, a missing or empty one reads as "Pending" |
| History.StatusOfIsStable | src/components/PurchaseHistory.jsx:138-140 | storing the displayed status back on the order displays the same status |
| History.VoucherNumber | src/components/PurchaseHistory.jsx:148-152 | "N/A" for a falsy id; otherwise "VOU-" then the id left-padded with '0', of length 4 + max(8, len(id)), never truncated |
| History.VoucherRecoversId | src/components/PurchaseHistory.jsx:148-152 | for a positive numeric id, the voucher without its prefix reads back as the id |
| History.VoucherInjective | src/components/PurchaseHistory.jsx:148-152 | distinct positive ids get distinct vouchers |
| History.Keep | src/components/PurchaseHistory.jsx:164 | an order is kept exactly when its displayed status is the filter, and as many orders are kept as display that status |
| History.FilterPurchases | src/components/PurchaseHistory.jsx:162-164 | "All" returns the list unchanged; any other filter returns exactly the orders displaying that status |
| History.KeepDistributes | src/components/PurchaseHistory.jsx:164 | filtering a concatenation is the concatenation of the filtered parts, so the original order is kept |
| History.FilterIdempotent | src/components/PurchaseHistory.jsx:162-164 | applying the same filter twice gives the same list as applying it once |
| History.Tally | src/components/PurchaseHistory.jsx:166-173 | a status is a key exactly when some order displays it, and maps to the number of orders displaying it |
| History.StatusCounts | src/components/PurchaseHistory.jsx:166-173 | "All" maps to the list length plus the orders literally labelled "All"; every other key is a displayed status and maps to the number of orders displaying it |
| History.Distinct | src/components/PurchaseHistory.jsx:175 | the result holds the same elements as the input, each exactly once |
| History.DistinctKeepsFirstOccurrenceOrder | src/components/PurchaseHistory.jsx:175 | the distinct statuses are listed in the order of their first occurrence |
| History.AvailableStatuses | src/components/PurchaseHistory.jsx:175-176 | "All" first, then every displayed status exactly once, and nothing else |
| History.StatusCountsSumToLength | src/components/PurchaseHistory.jsx:166-176 | the numbers of orders under the listed statuses add up to the number of orders |
| History.DisplayedCountsSumToLength | src/components/PurchaseHistory.jsx:166-220 | when no order is literally labelled "All", the "All" button shows the number of orders and the map values shown on the other buttons add up to it |
| History.LiteralAllInflatesCount | src/components/PurchaseHistory.jsx:166-220 | two orders, one labelled "All", make the "All" button show 3 |
| Storefront.CatalogRequest | src/components/Home.jsx:22-24 | the catalog is requested from the prices endpoint filtered by the game name "Mobile Legends" alone |
| Storefront.PackageName | src/components/Home.jsx:92-97 | the pass is named "Weekly Pass"; any other package is named by its amount's text followed by the gem suffix |
| Storefront.PackageNameIsPassExactly | src/components/Home.jsx:92-97 | a package is named "Weekly Pass" exactly when its amount is 0 or "0" |
| Storefront.PassNamingAgreesWithHistory | src/components/Home.jsx:92-97 | the storefront name and the history type classify the same amount the same way |
| Storefront.WeeklyPassOf | src/components/Home.jsx:108 | the weekly pass is the first sentinel entry of the catalog; there is none only when no entry is a pass |
| Storefront.NonPass | src/components/Home.jsx:109 | exactly the non-pass entries are kept, and they number the catalog size minus the pass count |
| Storefront.Insert | src/components/Home.jsx:110 | inserting into a sorted list keeps it sorted and adds exactly the one entry |
| Storefront.SortByAmount | src/components/Home.jsx:110 | the result is ascending by numeric amount and is a permutation of the input |
| Storefront.DiamondPackages | src/components/Home.jsx:109-110 | ascending by amount, a permutation of the non-pass entries, containing exactly the catalog's non-pass entries |
| Storefront.CatalogSplit | src/components/Home.jsx:108-110 | a catalog entry is among the diamond packages iff it is not a pass; a weekly pass is shown iff some entry is one; pass plus packages cover the catalog once iff it has at most one pass entry |
| Storefront.BuyClick | src/components/Home.jsx:31-42 | without a user only the login alert is raised; with one the package is selected, the form opens, message and payment fields are cleared, game and server ids and the login alert are kept |
| Storefront.Cancel | src/components/Home.jsx:442-448 | while submitting Cancel does nothing; otherwise it only closes the form, and every other field stays as it was |
| Storefront.DismissLoginAlert | src/components/Home.jsx:44-46 | the login alert is hidden and nothing else on the form changes |
| Storefront.DismissUndoesLoggedOutClick | src/components/Home.jsx:31-46 | dismissing the alert undoes a Buy click made without a user |
| Storefront.FreshFormRejectsConfirm | src/components/Home.jsx:7-54 | the form starts closed, idle, with no package and no alert; a logged-in user's first Buy click opens it with empty inputs, so an immediate confirm is rejected with "Please fill all fields" |
| Storefront.PurchaseRequest | src/components/Home.jsx:60-67 | the buy request names the user and package by id and carries the game id, server id, payment number and payment name as typed |
| Storefront.PaymentMethodNotSent | src/components/Home.jsx:60-67 | the payment method is required by the form but never sent |
| Storefront.BeginSubmit | src/components/Home.jsx:49-67 | rejected (message "Please fill all fields", nothing sent) iff an input is empty; otherwise, with a user and a package, isSubmitting is raised, the message cleared and the purchase request sent; without either, reading its id throws, so nothing is sent, the message becomes "Error submitting purchase: " plus the engine's TypeError text, isSubmitting is lowered and the form stays open |
| Storefront.FinishSubmit | src/components/Home.jsx:69-84 | isSubmitting is always lowered; the message is the reply's message or the default success text, or the error prefix plus the error; the inputs, the open form, the package and the login alert stay as they were |
| Storefront.ClearAfterSuccess | src/components/Home.jsx:70-78 | the deferred step closes the form, empties all five inputs and the message, and leaves the selected package, the in-flight flag and the login alert as they were |
| Storefront.ConfirmClick | src/components/Home.jsx:450-457 | the Confirm button does nothing iff the form is closed or a submission is in flight; otherwise it runs the submit handler |
| Storefront.StepKeepsPackage | src/components/Home.jsx:36-37 | every event keeps an open form's package selected, so a logged-in user's filled-in confirm always sends |
| Storefront.EmptyInputSendsNothing | src/components/Home.jsx:51-54 | with an empty input, confirm sends nothing, leaves isSubmitting alone and shows "Please fill all fields" |
| Storefront.InFlightGuardIsTheButton | src/components/Home.jsx:454 | while submitting, a Confirm click changes nothing and sends nothing, although the handler itself would send |
| Storefront.NoGracePeriod | src/components/Home.jsx:82-84 | after any reply the still-open, still-filled form sends the identical request on the next Confirm |
| Storefront.DoubleSubmissionTrace | src/components/Home.jsx:49-85 | confirm, any reply, confirm sends the same purchase twice |
| Storefront.ClearedFormIsRejected | src/components/Home.jsx:70-78 | a successful reply keeps the inputs until the deferred clear; after it the form is closed and a submit would be rejected |
| Moderation.PurchasesRequest | src/components/AdminPanel.jsx:15-17 | the list is fetched with status= followed by the selected filter |
| Moderation.Mount | src/components/AdminPanel.jsx:5-13 | the panel starts with no orders and no prices, on "Pending", not loading, and fetches the pending orders and then the prices |
| Moderation.MountedPanelShowsDelivered | src/components/AdminPanel.jsx:5-31 | the two loads started on mount give the same panel in either order: the delivered orders and prices, or an empty list for a failed or empty load, under "Pending" and not loading |
| Moderation.FinishLoad | src/components/AdminPanel.jsx:15-22 | a delivered list replaces the orders (a missing list gives []); a failed load leaves the panel unchanged |
| Moderation.FinishPriceLoad | src/components/AdminPanel.jsx:24-31 | a delivered price list replaces the prices, a missing one empties them, a failed load leaves the panel unchanged; the orders, filter and loading flag never change |
| Moderation.SelectStatus | src/components/AdminPanel.jsx:10-18 | a new filter is stored and fetches the orders with `getAllPurchases` under that filter, "All" included (sent as status=All), then the prices; choosing the current filter again fetches nothing |
| Moderation.BeginUpdate | src/components/AdminPanel.jsx:33-36 | loading is raised and the update carries exactly the keys purchase_id, status and admin_notes: the order, the button's status and the fixed note |
| Moderation.RefreshReloadsOrders | src/components/AdminPanel.jsx:15-64 | the Refresh button leaves the panel as it is and re-fetches only the orders under the current filter, even while loading; once that load settles, the panel is what delivering it gives |
| Moderation.Click | src/components/AdminPanel.jsx:80-97 | a click does something iff the order is listed, its stored status is exactly "Pending", and nothing is loading |
| Moderation.FinishUpdate | src/components/AdminPanel.jsx:37-43 | loading is lowered either way; success alerts and re-fetches the list under the selected filter, failure only alerts with the error |
| Moderation.VerdictsAreFinal | src/components/AdminPanel.jsx:82-95 | Approve writes "Success", Reject writes "Failed", they differ, and neither writes "Pending" |
| Moderation.StepSendsOnlyVerdicts | src/components/AdminPanel.jsx:33-44 | every request one event sends is a GET or a status update to "Success"/"Failed" with the fixed note |
| Moderation.RunSendsOnlyVerdicts | src/components/AdminPanel.jsx:33-44 | over any sequence of events the panel writes nothing but such status updates |
| Moderation.OneUpdateAtATime | src/components/AdminPanel.jsx:85-92 | while loading, no event sequence without a settled update lowers loading or sends a second update |
| Moderation.UpdateRestoresPanel | src/components/AdminPanel.jsx:33-44 | starting and finishing an update leaves the panel as it was, whatever the outcome; the list is not patched |
| Moderation.ReloadIffSuccess | src/components/AdminPanel.jsx:37-40 | the list is re-fetched iff the update succeeded, and only under the selected filter |
| Moderation.StatuslessOrderHasNoControls | src/components/AdminPanel.jsx:80 | an order with no stored status shows "Pending" in the history yet has no Approve/Reject controls |
| Moderation.ListIsLastDelivered | src/components/AdminPanel.jsx:15-22 | after a series of loads the list shown is the one the last successful load delivered |
| Routing.ViewOf | src/App.jsx:15-17 | the view is the hash without its first character, and "home" when that is empty |
| Routing.Render | src/App.jsx:45-58 | admin panel iff the view is admin and the user's is_admin is truthy, else "Access denied"; history iff a user is logged in, else "Please login first"; login and register always; home for every other view |
| Routing.Login | src/App.jsx:34-37 | the given user becomes the current user and the view stays |
| Routing.Logout | src/App.jsx:39-43 | no current user and an empty hash |
| Routing.ViewRoundTrip | src/App.jsx:15-17 | the hash "#v" names the view v; "" and "#" name home |
| Routing.LogoutShowsHome | src/App.jsx:39-43 | after logout the home page shows with no user |
| Routing.LogoutUndoesLogin | src/App.jsx:34-43 | logging out after logging in is the same as logging out, and closes the admin and history views again |
| Routing.LoginOpensViews | src/App.jsx:51-54 | after login the history view shows the user's history, and the admin view opens iff the user is an admin |
| Routing.LoginRedirectShowsLogin | src/components/Home.jsx:44-47 | the storefront's login redirect sets the hash to "#login", so the login page shows whoever is logged in |
| Routing.PublicViewsIgnoreSession | src/App.jsx:47-50 | the login and register pages render the same whoever is logged in |

## Left out

- Markup, styling, icons, the clipboard and the copied-voucher badge:
  presentation only.
- Number and date formatting (`formatMMK`, `formatPrice`, `formatDate`):
  they depend on locale-specific `Intl` and `Date` behaviour.
- `fetch`, JSON parsing and the backend itself. Every call is a request
  value plus an abstract outcome.
- `localStorage` and the restored session: there is no store to model.
- The `hashchange` listener: the view is computed from the hash directly.
- Timer delays: each timer is a separate step, with no timing.
- The login, register and price create/update/delete requests, and the
  admin user list: they are only plumbing for `Login.jsx`, `Register.jsx`
  and the unwired Edit/Delete buttons. Those components and `Nav.jsx` and
  `ContantAdmin.jsx` are not part of this model.
- Floating-point amounts and prices, NaN arithmetic, and `Number` on
  strings with spaces, signs other than a leading '-', decimals,
  exponents, `0x`/`0b`/`0o` prefixes or `Infinity`: numbers are integers.
  For the same reason the model writes every integer in plain digits,
  where JavaScript switches to exponent notation from 1e21 (`1e+21`), and
  it keeps integers above 2^53 exact, where a double rounds them.
- URL parsing: the decoders only split the URL string at '?', '&' and
  '='. A '#' in a name starts a fragment that `fetch` never sends, and a
  server would percent-decode `%xx` and may read '+' as a space; none of
  this is modelled.
- Values.PadStart: lengths count Unicode code points, where JavaScript
  counts UTF-16 code units. An id with a character outside the Basic
  Multilingual Plane, such as "\u{1F48E}", gets one zero more here than
  in the browser.
- History.VoucherNumber: padded through `Values.PadStart`, so the same
  code-point-versus-code-unit difference applies to ids outside the
  Basic Multilingual Plane.
- The engine's TypeError text: the message thrown when nobody is logged
  in is V8's wording; other engines word the same error differently.
- Statuses that name JavaScript object prototype keys ("constructor",
  "__proto__"): the counts are a map, so such a status is counted like
  any other. In the source, `acc[status]` on such a key reads or writes
  the prototype.
- Storefront.SortByAmount: non-numeric amounts are sorted as 0. In the
  source the comparator returns NaN for them and the engine decides the
  order.
- Storefront.DiamondPackages: sort stability is not stated. Only order by
  amount and permutation are proved.
- Non-string order statuses: the status is text or absent.
- The history page's response normalisation (`data.purchases || data || []`
  with `Array.isArray`) and its loading and error flags.
- The browser's own `required` check on the form inputs: the model runs
  the handler's own empty-field check directly.
- Moderation.FinishUpdate: after a successful update the list is re-fetched
  under the filter selected when the update finishes. The source re-fetches
  under the filter of the render in which the button was clicked. The two
  differ only if the filter changes while an update is in flight.
- Storefront.Step: a settled reply or a timer event is applied whenever it
  is delivered. Whether such an event can occur at that moment is left to
  the caller of the event sequence.

=== FILE: api.dfy ===
/** Construction of the REST requests the storefront sends (src/api/backendAPI.js).

    A request is its method, URL and (for POST) the JSON object handed to
    `JSON.stringify`. The network call itself and the reply parsing are not
    part of the model: callers receive the reply as an abstract outcome.
    Query values are interpolated with `${…}` and never URL-encoded. */
module Api {
  import opened Values

  const BaseUrl := "https://congabackend.onrender.com"
  const PricesEndpoint := BaseUrl + "/diamond-prices"
  const BuyEndpoint := BaseUrl + "/buy-diamond"
  const HistoryEndpoint := BaseUrl + "/purchase-history"
  const AdminPurchasesEndpoint := BaseUrl + "/admin/purchases"
  const UpdatePurchaseEndpoint := BaseUrl + "/admin/update-purchase"
  const AdminPricesEndpoint := BaseUrl + "/admin/diamond-prices"
  const FilterPurchasesEndpoint := BaseUrl + "/admin/filter-purchases"

  /** One property of a JSON request body, in source order. */
  datatype Field = Field(key: string, value: Value)

  datatype Request = Get(url: string) | Post(url: string, body: seq<Field>)

  // ---------------------------------------------------------------------
  // Reading a URL and a body back, as the backend does

  /** The part of a URL before its first '?'. */
  function PathOf(url: string): string {
    if url == [] || url[0] == '?' then [] else [url[0]] + PathOf(url[1..])
  }

  /** The part of a URL after its first '?', if it has one. */
  function QueryOf(url: string): Option<string> {
    if url == [] then None
    else if url[0] == '?' then Some(url[1..])
    else QueryOf(url[1..])
  }

  /** `s.split(sep)` */
  function Split(s: string, sep: char): (r: seq<string>)
    ensures |r| >= 1
  {
    if s == [] then [""]
    else
      var rest := Split(s[1..], sep);
      if s[0] == sep then [""] + rest else [[s[0]] + rest[0]] + rest[1..]
  }

  /** The `&`-separated fields of a URL's query string. */
  function QueryFields(url: string): seq<string> {
    match QueryOf(url)
    case None => []
    case Some(q) => Split(q, '&')
  }

  /** The value a server reads for `key`: the first property with that key;
      a missing property reads as `undefined`. */
  function Lookup(body: seq<Field>, key: string): Value {
    if body == [] then Undefined
    else if body[0].key == key then body[0].value
    else Lookup(body[1..], key)
  }

  /** The properties `JSON.stringify` actually emits: those whose value is
      not `undefined`. */
  function Serialized(body: seq<Field>): (r: seq<Field>)
    ensures forall f :: f in r <==> f in body && !f.value.Undefined?
  {
    if body == [] then []
    else if body[0].value.Undefined? then Serialized(body[1..])
    else [body[0]] + Serialized(body[1..])
  }

  function Keys(body: seq<Field>): (r: seq<string>)
    ensures |r| == |body|
    ensures forall i :: 0 <= i < |body| ==> r[i] == body[i].key
  {
    if body == [] then [] else [body[0].key] + Keys(body[1..])
  }

  // ---------------------------------------------------------------------
  // The requests

  /** The query `getDiamondPrices` builds: both names give a two-field
      query, a game name alone gives a one-field query, and without a game
      name there is no query at all, even when a server name is given.
      The values are interpolated without URL encoding. */
  function PriceQuery(gameName: Value, serverName: Value): Option<string> {
    if Truthy(gameName) && Truthy(serverName) then
      Some("game_name=" + Display(gameName) + "&server_name=" + Display(serverName))
    else if Truthy(gameName) then Some("game_name=" + Display(gameName))
    else None
  }

  /** `getDiamondPrices(game_name, server_name)`: the prices endpoint with
      the query above, if any. */
  function DiamondPricesUrl(gameName: Value, serverName: Value): (url: string)
    ensures PathOf(url) == PricesEndpoint
    ensures QueryOf(url) == PriceQuery(gameName, serverName)
  {
    match PriceQuery(gameName, serverName)
    case Some(q) =>
      UrlParts(PricesEndpoint, q);
      PricesEndpoint + "?" + q
    case None =>
      UrlWithoutQuery(PricesEndpoint);
      PricesEndpoint
  }

  function GetDiamondPrices(gameName: Value, serverName: Value): (r: Request)
    ensures r.Get? && PathOf(r.url) == PricesEndpoint
    ensures QueryOf(r.url) == PriceQuery(gameName, serverName)
  {
    Get(DiamondPricesUrl(gameName, serverName))
  }

  /** `buyDiamonds(user_id, package_id, game_id, server_id, payment_number,
      payment_name)`: the package is identified by its id, never by its
      amount, and the arguments map positionally onto the six keys. */
  function BuyDiamonds(userId: Value, packageId: Value, gameId: Value, serverId: Value,
                       paymentNumber: Value, paymentName: Value): (r: Request)
    ensures r.Post? && r.url == BuyEndpoint
    ensures Keys(r.body) == ["userId", "packageId", "gameId", "serverId", "paymentNumber", "paymentName"]
    ensures Lookup(r.body, "userId") == userId
    ensures Lookup(r.body, "packageId") == packageId
    ensures Lookup(r.body, "gameId") == gameId
    ensures Lookup(r.body, "serverId") == serverId
    ensures Lookup(r.body, "paymentNumber") == paymentNumber
    ensures Lookup(r.body, "paymentName") == paymentName
    ensures forall k :: k !in Keys(r.body) ==> Lookup(r.body, k) == Undefined
  {
    var body := [Field("userId", userId), Field("packageId", packageId), Field("gameId", gameId),
                 Field("serverId", serverId), Field("paymentNumber", paymentNumber),
                 Field("paymentName", paymentName)];
    var keys := Keys(body);
    assert keys == ["userId", "packageId", "gameId", "serverId", "paymentNumber", "paymentName"];
    LookupByPosition(body, keys);
    assert Lookup(body, keys[0]) == userId && Lookup(body, keys[1]) == packageId;
    assert Lookup(body, keys[2]) == gameId && Lookup(body, keys[3]) == serverId;
    assert Lookup(body, keys[4]) == paymentNumber && Lookup(body, keys[5]) == paymentName;
    Post(BuyEndpoint, body)
  }

  /** `getPurchaseHistory(user_id)` */
  function GetPurchaseHistory(userId: Value): (r: Request)
    ensures r.Get? && PathOf(r.url) == HistoryEndpoint
    ensures QueryOf(r.url) == Some("user_id=" + Display(userId))
  {
    var q := "user_id=" + Display(userId);
    UrlParts(HistoryEndpoint, q);
    Get(HistoryEndpoint + "?" + q)
  }

  /** `getAllPurchases(status = 'Pending')`: the default applies only when the
      argument is `undefined`; `null` is interpolated as "null". */
  function GetAllPurchases(status: Value): (r: Request)
    ensures r.Get? && PathOf(r.url) == AdminPurchasesEndpoint
    ensures status.Undefined? ==> QueryOf(r.url) == Some("status=Pending")
    ensures !status.Undefined? ==> QueryOf(r.url) == Some("status=" + Display(status))
  {
    var effective := if status.Undefined? then Text("Pending") else status;
    var q := "status=" + Display(effective);
    assert status.Undefined? ==> q == "status=Pending";
    UrlParts(AdminPurchasesEndpoint, q);
    Get(AdminPurchasesEndpoint + "?" + q)
  }

  /** `updatePurchaseStatus(purchase_id, status, admin_notes)` */
  function UpdatePurchaseStatus(purchaseId: Value, status: Value, adminNotes: Value): (r: Request)
    ensures r.Post? && r.url == UpdatePurchaseEndpoint
    ensures Keys(r.body) == ["purchase_id", "status", "admin_notes"]
    ensures Lookup(r.body, "purchase_id") == purchaseId
    ensures Lookup(r.body, "status") == status
    ensures Lookup(r.body, "admin_notes") == adminNotes
  {
    var body := [Field("purchase_id", purchaseId), Field("status", status), Field("admin_notes", adminNotes)];
    var keys := Keys(body);
    assert keys == ["purchase_id", "status", "admin_notes"];
    LookupByPosition(body, keys);
    assert Lookup(body, keys[0]) == purchaseId && Lookup(body, keys[1]) == status;
    assert Lookup(body, keys[2]) == adminNotes;
    Post(UpdatePurchaseEndpoint, body)
  }

  /** `getDiamondPricesAdmin()` */
  function GetDiamondPricesAdmin(): (r: Request)
    ensures r.Get? && PathOf(r.url) == AdminPricesEndpoint && QueryOf(r.url) == None
  {
    UrlWithoutQuery(AdminPricesEndpoint);
    Get(AdminPricesEndpoint)
  }

  /** `filterPurchases(username)` */
  function FilterPurchases(username: Value): (r: Request)
    ensures r.Get? && PathOf(r.url) == FilterPurchasesEndpoint
    ensures QueryOf(r.url) == Some("username=" + Display(username))
  {
    var q := "username=" + Display(username);
    UrlParts(FilterPurchasesEndpoint, q);
    Get(FilterPurchasesEndpoint + "?" + q)
  }

  // ---------------------------------------------------------------------
  // Properties

  /** A URL built as prefix + "?" + query splits back into its two parts. */
  lemma {:induction false} UrlParts(prefix: string, query: string)
    requires '?' !in prefix
    ensures PathOf(prefix + "?" + query) == prefix
    ensures QueryOf(prefix + "?" + query) == Some(query)
  {
    var url := prefix + "?" + query;
    if prefix != [] {
      assert url[1..] == prefix[1..] + "?" + query;
      UrlParts(prefix[1..], query);
    }
  }

  lemma {:induction false} UrlWithoutQuery(url: string)
    requires '?' !in url
    ensures PathOf(url) == url && QueryOf(url) == None
  {
    if url != [] {
      UrlWithoutQuery(url[1..]);
    }
  }

  lemma {:induction false} SplitWithoutSeparator(s: string, sep: char)
    requires sep !in s
    ensures Split(s, sep) == [s]
  {
    if s != [] {
      SplitWithoutSeparator(s[1..], sep);
      assert [s[0]] + s[1..] == s;
    }
  }

  lemma {:induction false} SplitAtSeparator(a: string, sep: char, b: string)
    requires sep !in a
    ensures Split(a + [sep] + b, sep) == [a] + Split(b, sep)
  {
    var s := a + [sep] + b;
    if a == [] {
      assert s[1..] == b;
    } else {
      assert s[1..] == a[1..] + [sep] + b;
      SplitAtSeparator(a[1..], sep, b);
      assert [a[0]] + a[1..] == a;
    }
  }

  /** A server name given without a game name is silently dropped: the URL
      is the same whatever the server name is. */
  lemma ServerNameAloneIsDropped(gameName: Value, serverName: Value)
    requires !Truthy(gameName)
    ensures DiamondPricesUrl(gameName, serverName) == DiamondPricesUrl(gameName, Undefined)
    ensures DiamondPricesUrl(gameName, serverName) == PricesEndpoint
  {
  }

  /** When neither name contains '&', the query string splits at '&' into
      exactly the two filters it was built from, in order. */
  lemma PriceQueryRoundTrip(gameName: Value, serverName: Value)
    requires Truthy(gameName) && Truthy(serverName)
    requires '&' !in Display(gameName) && '&' !in Display(serverName)
    ensures QueryFields(DiamondPricesUrl(gameName, serverName))
            == ["game_name=" + Display(gameName), "server_name=" + Display(serverName)]
  {
    var a := "game_name=" + Display(gameName);
    var b := "server_name=" + Display(serverName);
    assert '&' !in a;
    assert '&' !in b;
    assert a + "&server_name=" + Display(serverName) == a + ['&'] + b;
    SplitAtSeparator(a, '&', b);
    SplitWithoutSeparator(b, '&');
  }

  /** Because query values are not encoded, a game name that contains
      "&server_name=" produces the same request as a genuine pair of
      filters: "Mobile Legends&server_name=Asia" alone reads as the game
      "Mobile Legends" on the server "Asia". */
  lemma UnencodedGameNameForgesServerFilter(game: string, server: string)
    requires game != "" && server != ""
    ensures DiamondPricesUrl(Text(game + "&server_name=" + server), Undefined)
            == DiamondPricesUrl(Text(game), Text(server))
  {
    var forged := game + "&server_name=" + server;
    assert "game_name=" + forged == "game_name=" + game + "&server_name=" + server;
    assert PriceQuery(Text(forged), Undefined) == PriceQuery(Text(game), Text(server));
  }

  /** Every key of a body with distinct keys reads back the value stored
      under it. */
  lemma {:induction false} LookupByPosition(body: seq<Field>, keys: seq<string>)
    requires keys == Keys(body)
    requires forall i, j :: 0 <= i < j < |keys| ==> keys[i] != keys[j]
    ensures forall i :: 0 <= i < |body| ==> Lookup(body, keys[i]) == body[i].value
    ensures forall k :: k !in keys ==> Lookup(body, k) == Undefined
  {
    if body != [] {
      assert Keys(body[1..]) == keys[1..];
      LookupByPosition(body[1..], keys[1..]);
    }
  }

  /** `JSON.stringify` drops `undefined` properties, but in a body with
      distinct keys the server still reads every key back as the value the
      client put there: a dropped property reads as `undefined` anyway. */
  lemma {:induction false} SerializedReadsTheSame(body: seq<Field>, key: string)
    requires forall i, j :: 0 <= i < j < |body| ==> body[i].key != body[j].key
    ensures Lookup(Serialized(body), key) == Lookup(body, key)
  {
    if body != [] {
      SerializedReadsTheSame(body[1..], key);
      if body[0].key == key && body[0].value.Undefined? {
        LookupAbsent(body[1..], key);
        LookupAbsent(Serialized(body[1..]), key);
      }
    }
  }

  /** The buy body has no `paymentMethod` property. */
  lemma BuyDiamondsOmitsPaymentMethod(userId: Value, packageId: Value, gameId: Value, serverId: Value,
                                      paymentNumber: Value, paymentName: Value)
    ensures Lookup(BuyDiamonds(userId, packageId, gameId, serverId, paymentNumber, paymentName).body,
                   "paymentMethod") == Undefined
  {
    BuyBodyOmitsPaymentMethod(BuyDiamonds(userId, packageId, gameId, serverId, paymentNumber, paymentName).body);
  }

  lemma BuyBodyOmitsPaymentMethod(body: seq<Field>)
    requires Keys(body) == ["userId", "packageId", "gameId", "serverId", "paymentNumber", "paymentName"]
    ensures Lookup(body, "paymentMethod") == Undefined
  {
    var keys := Keys(body);
    var pm := "paymentMethod";
    assert pm != keys[0] by { assert |keys[0]| == 6; }
    assert pm != keys[1] by { assert |keys[1]| == 9; }
    assert pm != keys[2] by { assert |keys[2]| == 6; }
    assert pm != keys[3] by { assert |keys[3]| == 8; }
    assert pm != keys[4] by { assert pm[7] != keys[4][7]; }
    assert pm != keys[5] by { assert |keys[5]| == 11; }
    LookupOutsideKeys(body, pm);
  }

  /** A key the body does not carry reads as `undefined`. */
  lemma {:induction false} LookupOutsideKeys(body: seq<Field>, key: string)
    requires key !in Keys(body)
    ensures Lookup(body, key) == Undefined
  {
    if body != [] {
      assert Keys(body) == [body[0].key] + Keys(body[1..]);
      LookupOutsideKeys(body[1..], key);
    }
  }

  lemma {:induction false} LookupAbsent(body: seq<Field>, key: string)
    requires forall f :: f in body ==> f.key != key
    ensures Lookup(body, key) == Undefined
  {
    if body != [] {
      LookupAbsent(body[1..], key);
    }
  }
}

=== FILE: history.dfy ===
/** The decisions of the purchase-history page (src/components/PurchaseHistory.jsx):
    which price an order shows, whether it is the weekly pass, which status
    it has, its voucher code, and the status filter with its counts. */
module History {
  import opened Values
  import opened Records

  const PassLabel := "Weekly Pass"
  const DiamondsLabel := "Diamonds"
  const GemSuffix := " \U{1F48E}"
  const DefaultStatus := "Pending"
  const AllFilter := "All"
  const VoucherPrefix := "VOU-"
  const VoucherWidth := 8

  // ---------------------------------------------------------------------
  // Price resolution

  /** `purchase.amount ?? purchase.diamond_amount` */
  function PurchaseAmount(p: Purchase): Value {
    Coalesce(p.amount, p.diamondAmount)
  }

  /** True when index `i` is the first catalog entry loosely equal to `amount`. */
  ghost predicate IsFirstMatch(catalog: seq<PriceEntry>, amount: Value, i: int) {
    && 0 <= i < |catalog|
    && LooseEq(catalog[i].amount, amount)
    && forall j :: 0 <= j < i ==> !LooseEq(catalog[j].amount, amount)
  }

  /** `prices.find((p) => p.amount == amount)`, as an index into the catalog. */
  function FindByAmount(catalog: seq<PriceEntry>, amount: Value): (r: Option<nat>)
    ensures r.Some? ==> IsFirstMatch(catalog, amount, r.value)
    ensures r.None? ==> forall j :: 0 <= j < |catalog| ==> !LooseEq(catalog[j].amount, amount)
  {
    if catalog == [] then None
    else if LooseEq(catalog[0].amount, amount) then Some(0)
    else
      match FindByAmount(catalog[1..], amount)
      case None => None
      case Some(i) => Some(i + 1)
  }

  /** `getPurchasePrice`: the stored price wins whatever the catalog holds;
      without one, the price of the first catalog entry whose amount is
      loosely equal to the order's amount; otherwise 0. The catalog is not
      searched when the order has no amount at all. */
  function PurchasePrice(p: Purchase, catalog: seq<PriceEntry>): (r: Value)
    ensures !Nullish(p.price) ==> r == p.price
    ensures Nullish(p.price) && !Nullish(PurchaseAmount(p)) ==>
              forall i :: IsFirstMatch(catalog, PurchaseAmount(p), i) ==> r == catalog[i].price
    ensures Nullish(p.price) && Nullish(PurchaseAmount(p)) ==> r == Num(0)
    ensures (Nullish(p.price) && forall i :: 0 <= i < |catalog| ==> !LooseEq(catalog[i].amount, PurchaseAmount(p)))
              ==> r == Num(0)
  {
    if !Nullish(p.price) then p.price
    else
      var amount := PurchaseAmount(p);
      if Nullish(amount) then Num(0)
      else
        match FindByAmount(catalog, amount)
        case Some(i) => catalog[i].price
        case None => Num(0)
  }

  /** Every resolved price is the stored one, a catalog price, or 0. */
  lemma PriceComesFromOrderOrCatalog(p: Purchase, catalog: seq<PriceEntry>)
    ensures var r := PurchasePrice(p, catalog);
            r == p.price || r == Num(0) || exists i :: 0 <= i < |catalog| && r == catalog[i].price
  {
  }

  /** The first match decides: entries appended to the catalog later never
      change a price that the catalog already resolved. */
  lemma FirstMatchIsStable(p: Purchase, catalog: seq<PriceEntry>, extra: seq<PriceEntry>, i: nat)
    requires Nullish(p.price) && !Nullish(PurchaseAmount(p))
    requires i < |catalog| && LooseEq(catalog[i].amount, PurchaseAmount(p))
    ensures PurchasePrice(p, catalog + extra) == PurchasePrice(p, catalog)
  {
    var amount := PurchaseAmount(p);
    var k := FindByAmount(catalog, amount).value;
    var longer := catalog + extra;
    assert forall j :: 0 <= j < |catalog| ==> longer[j] == catalog[j];
    assert IsFirstMatch(longer, amount, k);
    var found := FindByAmount(longer, amount);
    FirstMatchUnique(longer, amount, found.value, k);
  }

  lemma FirstMatchUnique(catalog: seq<PriceEntry>, amount: Value, i: int, k: int)
    requires IsFirstMatch(catalog, amount, i) && IsFirstMatch(catalog, amount, k)
    ensures i == k
  {
  }

  /** An order for 100 diamonds without a stored price shows the catalog
      price of the 100-diamond package, also when the amount was
      serialised as the string "100". */
  lemma CatalogFallbackScenario()
    ensures var catalog := [PriceEntry(Num(1), Text("Mobile Legends"), Null, Num(100), Num(5000))];
            && PurchasePrice(Purchase(Num(7), Num(100), Undefined, Null, None), catalog) == Num(5000)
            && PurchasePrice(Purchase(Num(7), Undefined, Text("100"), Undefined, None), catalog) == Num(5000)
  {
    NumberLooselyEqualsItsString(100);
    assert NumberToString(100) == "100";
  }

  /** A stored price of 3000 wins over a catalog match priced 9999. */
  lemma StoredPriceScenario()
    ensures var catalog := [PriceEntry(Num(1), Text("Mobile Legends"), Null, Num(100), Num(9999))];
            PurchasePrice(Purchase(Num(7), Num(100), Undefined, Num(3000), None), catalog) == Num(3000)
  {
  }

  // ---------------------------------------------------------------------
  // Weekly pass classification

  /** `isWeeklyPass`: the `amount` field decides unless it is null or
      undefined, in which case `diamond_amount` does; either way only the
      number 0 and the text "0" mark the pass. */
  function IsWeeklyPass(p: Purchase): (r: bool)
    ensures !Nullish(p.amount) ==> (r <==> p.amount == Num(0) || p.amount == Text("0"))
    ensures Nullish(p.amount) ==> (r <==> p.diamondAmount == Num(0) || p.diamondAmount == Text("0"))
  {
    IsPassSentinel(PurchaseAmount(p))
  }

  /** `getPurchaseType`: every order is either the weekly pass or diamonds. */
  function PurchaseType(p: Purchase): (r: string)
    ensures r == PassLabel <==> IsWeeklyPass(p)
    ensures r == DiamondsLabel <==> !IsWeeklyPass(p)
  {
    if IsWeeklyPass(p) then PassLabel else DiamondsLabel
  }

  /** `getPurchaseAmount`: the pass label for the pass, "N/A" exactly for
      any other falsy amount, and otherwise the amount's text with the gem. */
  function AmountLabel(p: Purchase): (r: string)
    ensures r == PassLabel <==> IsWeeklyPass(p)
    ensures r == "N/A" <==> !IsWeeklyPass(p) && !Truthy(PurchaseAmount(p))
    ensures !IsWeeklyPass(p) && Truthy(PurchaseAmount(p)) ==> r == Display(PurchaseAmount(p)) + GemSuffix
  {
    var amount := PurchaseAmount(p);
    if IsPassSentinel(amount) then PassLabel
    else if Truthy(amount) then
      var shown := Display(amount) + GemSuffix;
      assert shown[|shown| - 1] == '\U{1F48E}';
      assert PassLabel[|PassLabel| - 1] == 's' && "N/A"[2] == 'A';
      shown
    else "N/A"
  }

  /** The three amount-dependent functions classify every order the same way:
      the amount label, the type and the pass flag all say "Weekly Pass"
      exactly for the sentinel, and every other order is of type "Diamonds". */
  lemma {:induction false} ClassificationAgrees(p: Purchase)
    ensures IsWeeklyPass(p) <==> PurchaseType(p) == PassLabel
    ensures IsWeeklyPass(p) <==> AmountLabel(p) == PassLabel
    ensures !IsWeeklyPass(p) <==> PurchaseType(p) == DiamondsLabel
  {
  }

  /** `??` falls back only on null and undefined: an order whose `amount` is 0
      is the pass whatever its `diamond_amount` says. */
  lemma ZeroAmountIsNotReplaced(p: Purchase)
    requires p.amount == Num(0)
    ensures IsWeeklyPass(p) && AmountLabel(p) == PassLabel
  {
  }

  /** The sentinel test is strict while catalog matching is loose: an amount
      "00" is classified as diamonds, yet it matches the pass's catalog entry. */
  lemma SentinelIsStrictButMatchIsLoose()
    ensures !IsPassSentinel(Text("00")) && LooseEq(Text("00"), Num(0))
  {
    assert "00"[..1] == "0";
    assert "0"[..0] == "";
  }

  // ---------------------------------------------------------------------
  // Status

  /** `getPurchaseStatus`: a missing or empty status reads as "Pending". */
  function StatusOf(p: Purchase): (r: string)
    ensures r != ""
    ensures p.status.Some? && p.status.value != "" ==> r == p.status.value
    ensures p.status.None? || p.status == Some("") ==> r == DefaultStatus
  {
    if p.status.Some? && p.status.value != "" then p.status.value else DefaultStatus
  }

  /** Writing the displayed status back onto the order does not change it. */
  lemma StatusOfIsStable(p: Purchase)
    ensures StatusOf(p.(status := Some(StatusOf(p)))) == StatusOf(p)
  {
  }

  /** The displayed status of each order, in list order. */
  function Statuses(ps: seq<Purchase>): (r: seq<string>)
    ensures |r| == |ps|
    ensures forall i :: 0 <= i < |ps| ==> r[i] == StatusOf(ps[i])
  {
    seq(|ps|, i requires 0 <= i < |ps| => StatusOf(ps[i]))
  }

  /** How many orders display status `s`. */
  function Count(ps: seq<Purchase>, s: string): nat {
    multiset(Statuses(ps))[s]
  }

  // ---------------------------------------------------------------------
  // Voucher numbers

  /** `generateVoucherNumber`: "N/A" for a falsy id, otherwise "VOU-"
      followed by the id left-padded with '0' to at least eight characters;
      a longer id is kept whole. */
  function VoucherNumber(id: Value): (r: string)
    ensures !Truthy(id) ==> r == "N/A"
    ensures Truthy(id) ==>
              |r| == |VoucherPrefix| + (if |Display(id)| >= VoucherWidth then |Display(id)| else VoucherWidth)
    ensures Truthy(id) ==> r[..|VoucherPrefix|] == VoucherPrefix
    ensures Truthy(id) ==> r[|r| - |Display(id)|..] == Display(id)
    ensures Truthy(id) ==> forall i :: |VoucherPrefix| <= i < |r| - |Display(id)| ==> r[i] == '0'
  {
    if !Truthy(id) then "N/A" else VoucherPrefix + PadStart(Display(id), VoucherWidth, '0')
  }

  /** Support staff can read the order id back from a voucher: stripping
      the prefix and reading the rest as a number gives the id. */
  lemma VoucherRecoversId(n: int)
    requires n > 0
    ensures |VoucherNumber(Num(n))| > |VoucherPrefix|
    ensures StringToNumber(VoucherNumber(Num(n))[|VoucherPrefix|..]) == Some(n)
  {
    var digits := Numeral(n);
    assert Display(Num(n)) == digits;
    var padded := PadStart(digits, VoucherWidth, '0');
    assert VoucherNumber(Num(n)) == VoucherPrefix + padded;
    assert (VoucherPrefix + padded)[|VoucherPrefix|..] == padded;
    PaddedNumeralValue(n);
  }

  lemma PaddedNumeralValue(n: nat)
    ensures var padded := PadStart(Numeral(n), VoucherWidth, '0');
            StringToNumber(padded) == Some(n)
  {
    var digits := Numeral(n);
    var padded := PadStart(digits, VoucherWidth, '0');
    NumeralRoundTrip(n);
    if |digits| < VoucherWidth {
      LeadingZerosValue(VoucherWidth - |digits|, digits);
      assert padded == seq(VoucherWidth - |digits|, _ => '0') + digits;
    }
    assert AllDigits(padded) && DigitsValue(padded) == n;
    assert IsDigit(padded[0]);
  }

  /** Distinct positive order ids never share a voucher. */
  lemma VoucherInjective(m: int, n: int)
    requires m > 0 && n > 0
    requires VoucherNumber(Num(m)) == VoucherNumber(Num(n))
    ensures m == n
  {
    VoucherRecoversId(m);
    VoucherRecoversId(n);
  }

  // ---------------------------------------------------------------------
  // Status filter

  /** `purchases.filter((p) => getPurchaseStatus(p) === status)` */
  function Keep(ps: seq<Purchase>, status: string): (r: seq<Purchase>)
    ensures forall p :: p in r <==> p in ps && StatusOf(p) == status
    ensures |r| == Count(ps, status)
  {
    if ps == [] then []
    else
      assert Statuses(ps) == [StatusOf(ps[0])] + Statuses(ps[1..]);
      (if StatusOf(ps[0]) == status then [ps[0]] else []) + Keep(ps[1..], status)
  }

  /** `filteredPurchases`: "All" shows the list unchanged, any other filter
      exactly the orders displaying that status. */
  function FilterPurchases(ps: seq<Purchase>, filter: string): (r: seq<Purchase>)
    ensures filter == AllFilter ==> r == ps
    ensures filter != AllFilter ==> forall p :: p in r <==> p in ps && StatusOf(p) == filter
    ensures filter != AllFilter ==> |r| == Count(ps, filter)
  {
    if filter == AllFilter then ps else Keep(ps, filter)
  }

  /** Filtering keeps the original order: it distributes over concatenation. */
  lemma {:induction false} KeepDistributes(a: seq<Purchase>, b: seq<Purchase>, status: string)
    ensures Keep(a + b, status) == Keep(a, status) + Keep(b, status)
  {
    if a != [] {
      assert (a + b)[1..] == a[1..] + b;
      KeepDistributes(a[1..], b, status);
    } else {
      assert a + b == b;
    }
  }

  /** Applying the same filter twice changes nothing. */
  lemma {:induction false} FilterIdempotent(ps: seq<Purchase>, filter: string)
    ensures FilterPurchases(FilterPurchases(ps, filter), filter) == FilterPurchases(ps, filter)
  {
    if filter != AllFilter {
      KeepIdempotent(ps, filter);
    }
  }

  lemma {:induction false} KeepIdempotent(ps: seq<Purchase>, status: string)
    ensures Keep(Keep(ps, status), status) == Keep(ps, status)
  {
    if ps != [] {
      KeepIdempotent(ps[1..], status);
      var head := if StatusOf(ps[0]) == status then [ps[0]] else [];
      KeepDistributes(head, Keep(ps[1..], status), status);
      if head != [] {
        assert head[1..] == [];
      }
    }
  }

  // ---------------------------------------------------------------------
  // Status counts and the list of filters

  /** One count per displayed status, added up order by order. */
  function Tally(ps: seq<Purchase>): (m: map<string, nat>)
    ensures forall s :: s in m <==> s in Statuses(ps)
    ensures forall s :: s in m ==> m[s] == Count(ps, s)
  {
    if ps == [] then map[]
    else
      var init := ps[..|ps| - 1];
      var status := StatusOf(ps[|ps| - 1]);
      var m := Tally(init);
      assert Statuses(ps) == Statuses(init) + [status];
      assert multiset(Statuses(ps)) == multiset(Statuses(init)) + multiset{status};
      m[status := (if status in m then m[status] else 0) + 1]
  }

  /** `statusCounts`: starts from `{ All: purchases.length }` and adds one per
      order under its displayed status. A status other than "All" is a key
      exactly when some order displays it, and maps to that number of orders;
      "All" maps to the length plus the orders whose status is literally "All". */
  function StatusCounts(ps: seq<Purchase>): (counts: map<string, nat>)
    ensures AllFilter in counts && counts[AllFilter] == |ps| + Count(ps, AllFilter)
    ensures forall s :: s != AllFilter ==> (s in counts <==> s in Statuses(ps))
    ensures forall s :: s in counts && s != AllFilter ==> counts[s] == Count(ps, s)
  {
    var t := Tally(ps);
    t[AllFilter := |ps| + (if AllFilter in t then t[AllFilter] else 0)]
  }

  /** First position of `x` in `xs`. */
  function FirstIndex(xs: seq<string>, x: string): (i: nat)
    requires x in xs
    ensures i < |xs| && xs[i] == x && x !in xs[..i]
  {
    if xs[0] == x then 0
    else
      var k := FirstIndex(xs[1..], x);
      assert xs[..k + 1] == [xs[0]] + xs[1..][..k];
      k + 1
  }

  lemma FirstIndexUnique(xs: seq<string>, x: string, i: nat)
    requires i < |xs| && xs[i] == x && x !in xs[..i]
    ensures FirstIndex(xs, x) == i
  {
  }

  /** `[...new Set(xs)]`: each element once, in first-occurrence order. */
  function Distinct(xs: seq<string>): (r: seq<string>)
    ensures forall x :: x in r <==> x in xs
    ensures forall i, j :: 0 <= i < j < |r| ==> r[i] != r[j]
  {
    if xs == [] then []
    else
      var init := xs[..|xs| - 1];
      var last := xs[|xs| - 1];
      assert xs == init + [last];
      var d := Distinct(init);
      if last in d then d else d + [last]
  }

  /** Every element of `r` occurs in `xs`, and `r` lists them in the order
      of their first occurrence in `xs`. */
  ghost predicate InFirstOccurrenceOrder(xs: seq<string>, r: seq<string>) {
    && (forall x :: x in r ==> x in xs)
    && forall i, j :: 0 <= i < j < |r| ==> FirstIndex(xs, r[i]) < FirstIndex(xs, r[j])
  }

  /** The distinct statuses appear in the order of their first occurrence. */
  lemma {:induction false} DistinctKeepsFirstOccurrenceOrder(xs: seq<string>)
    ensures InFirstOccurrenceOrder(xs, Distinct(xs))
  {
    if xs != [] {
      var init := xs[..|xs| - 1];
      var last := xs[|xs| - 1];
      assert xs == init + [last];
      var d := Distinct(init);
      var r := Distinct(xs);
      assert r == if last in d then d else d + [last];
      DistinctKeepsFirstOccurrenceOrder(init);
      forall x | x in init
        ensures FirstIndex(xs, x) == FirstIndex(init, x)
      {
        var k := FirstIndex(init, x);
        assert xs[..k] == init[..k];
        FirstIndexUnique(xs, x, k);
      }
      if last !in d {
        assert xs[..|init|] == init;
        FirstIndexUnique(xs, last, |init|);
      }
      forall i, j | 0 <= i < j < |r|
        ensures FirstIndex(xs, r[i]) < FirstIndex(xs, r[j])
      {
        assert r[i] == d[i] && d[i] in init;
        assert FirstIndex(xs, d[i]) == FirstIndex(init, d[i]);
        if j < |d| {
          assert r[j] == d[j] && d[j] in init;
          assert FirstIndex(xs, d[j]) == FirstIndex(init, d[j]);
          assert InFirstOccurrenceOrder(init, d);
        } else {
          assert r[j] == last;
          assert FirstIndex(init, d[i]) < |init|;
        }
      }
    }
  }

  /** `availableStatuses`: "All", then every displayed status once. */
  function AvailableStatuses(ps: seq<Purchase>): (r: seq<string>)
    ensures |r| >= 1 && r[0] == AllFilter
    ensures forall s :: s in r[1..] <==> s in Statuses(ps)
    ensures forall i, j :: 1 <= i < j < |r| ==> r[i] != r[j]
  {
    var d := Distinct(Statuses(ps));
    assert ([AllFilter] + d)[1..] == d;
    [AllFilter] + d
  }

  /** Sum of the counts of the statuses in `ds`. */
  function SumCounts(ds: seq<string>, xs: seq<string>): nat {
    if ds == [] then 0 else SumCounts(ds[..|ds| - 1], xs) + multiset(xs)[ds[|ds| - 1]]
  }

  lemma {:induction false} SumCountsAppend(ds: seq<string>, xs: seq<string>, y: string)
    requires forall i, j :: 0 <= i < j < |ds| ==> ds[i] != ds[j]
    ensures SumCounts(ds, xs + [y]) == SumCounts(ds, xs) + (if y in ds then 1 else 0)
  {
    if ds != [] {
      var e := ds[..|ds| - 1];
      assert ds == e + [ds[|ds| - 1]];
      SumCountsAppend(e, xs, y);
    }
  }

  lemma {:induction false} DistinctCountsSum(xs: seq<string>)
    ensures SumCounts(Distinct(xs), xs) == |xs|
  {
    if xs != [] {
      var init := xs[..|xs| - 1];
      var last := xs[|xs| - 1];
      assert xs == init + [last];
      var d := Distinct(init);
      DistinctCountsSum(init);
      SumCountsAppend(d, init, last);
      if last !in d {
        var r := d + [last];
        assert r[..|r| - 1] == d;
      }
    }
  }

  /** The per-status counts behind the filter buttons add up to the number
      of orders: every order is counted under exactly one listed status. */
  lemma StatusCountsSumToLength(ps: seq<Purchase>)
    ensures SumCounts(AvailableStatuses(ps)[1..], Statuses(ps)) == |ps|
  {
    var d := Distinct(Statuses(ps));
    assert AvailableStatuses(ps)[1..] == d;
    DistinctCountsSum(Statuses(ps));
  }

  /** The sum of the map's values under the keys `ds`. */
  function MapSum(ds: seq<string>, m: map<string, nat>): nat
    requires forall i :: 0 <= i < |ds| ==> ds[i] in m
  {
    if ds == [] then 0 else MapSum(ds[..|ds| - 1], m) + m[ds[|ds| - 1]]
  }

  /** The numbers the buttons display: when no order is literally labelled
      "All", the "All" button shows the number of orders and the other
      buttons' numbers add up to it. An order labelled "All" breaks both. */
  lemma {:induction false} DisplayedCountsSumToLength(ps: seq<Purchase>)
    requires AllFilter !in Statuses(ps)
    ensures var counts := StatusCounts(ps);
            var listed := AvailableStatuses(ps)[1..];
            && counts[AllFilter] == |ps|
            && (forall i :: 0 <= i < |listed| ==> listed[i] in counts)
            && MapSum(listed, counts) == |ps|
  {
    var counts := StatusCounts(ps);
    var listed := AvailableStatuses(ps)[1..];
    assert Count(ps, AllFilter) == 0;
    assert forall i :: 0 <= i < |listed| ==> listed[i] in Statuses(ps) && listed[i] != AllFilter;
    MapSumIsSumCounts(listed, counts, ps);
    StatusCountsSumToLength(ps);
  }

  lemma {:induction false} MapSumIsSumCounts(ds: seq<string>, m: map<string, nat>, ps: seq<Purchase>)
    requires forall i :: 0 <= i < |ds| ==> ds[i] in m && m[ds[i]] == Count(ps, ds[i])
    ensures MapSum(ds, m) == SumCounts(ds, Statuses(ps))
  {
    if ds != [] {
      MapSumIsSumCounts(ds[..|ds| - 1], m, ps);
    }
  }

  /** An order labelled "All" inflates the "All" button: two orders, one of
      them labelled "All", show 3 under "All". */
  lemma LiteralAllInflatesCount(p: Purchase, q: Purchase)
    requires p.status == Some(AllFilter) && q.status == Some(DefaultStatus)
    ensures StatusCounts([p, q])[AllFilter] == 3
  {
    assert Statuses([p, q]) == [AllFilter, DefaultStatus];
    assert multiset([AllFilter, DefaultStatus])[AllFilter] == 1;
  }
}

=== FILE: moderation.dfy ===
/** The admin panel: the list of purchase requests under a status filter,
    the Approve and Reject controls of pending orders, and the `loading`
    flag around a status update. Backend calls are abstract: a step emits
    the request it sends, and a later step delivers the outcome. */
module Moderation {
  import opened Values
  import opened Records
  import Api
  import History

  const StatusNote := "Status updated by admin"
  /** The status of an order awaiting review, the same default the purchase
      history shows for an order without one. */
  const PendingStatus := History.DefaultStatus
  const UpdatedAlert := "Status updated successfully"
  const UpdateErrorPrefix := "Error updating status: "

  /** The panel's state: the loaded orders and prices, the status filter
      and the `loading` flag. */
  datatype Panel = Panel(purchases: seq<Purchase>, prices: seq<PriceEntry>, selectedStatus: string, loading: bool)

  /** On mount the filter is "Pending" and nothing is loading. */
  const InitialPanel := Panel([], [], PendingStatus, false)

  /** The two buttons of a pending order. */
  datatype Action = Approve | Reject

  /** The status each button writes. */
  function Writes(a: Action): string {
    match a
    case Approve => "Success"
    case Reject => "Failed"
  }

  /** What the panel does besides changing its state: a browser alert or a
      backend request. */
  datatype Effect = Alert(text: string) | Send(request: Api.Request)

  /** How the update call settles: any reply counts as success (an error
      reply is not inspected); a thrown error carries its message. */
  datatype UpdateOutcome = Acknowledged | UpdateFailed(message: string)

  /** How a purchase-list load settles: the reply's `purchases` field
      (`None` when it is missing or falsy), or a thrown error. */
  datatype LoadOutcome<T> = Listed(items: Option<seq<T>>) | LoadFailed

  // ---------------------------------------------------------------------
  // Loading

  /** `loadPurchases` asks for the orders under the current filter. */
  function PurchasesRequest(panel: Panel): (r: Api.Request)
    ensures r.Get? && Api.PathOf(r.url) == Api.AdminPurchasesEndpoint
    ensures Api.QueryOf(r.url) == Some("status=" + panel.selectedStatus)
  {
    Api.GetAllPurchases(Text(panel.selectedStatus))
  }

  /** The effect on `[selectedStatus]`: both lists are fetched again. */
  function ReloadRequests(panel: Panel): seq<Api.Request> {
    [PurchasesRequest(panel), Api.GetDiamondPricesAdmin()]
  }

  /** Mounting the panel loads the pending orders and the prices. */
  function Mount(): (r: (Panel, seq<Api.Request>))
    ensures r.0 == Panel([], [], PendingStatus, false)
    ensures |r.1| == 2 && r.1[0] == PurchasesRequest(r.0) && r.1[1] == Api.GetDiamondPricesAdmin()
    ensures Api.QueryOf(r.1[0].url) == Some("status=" + PendingStatus)
  {
    (InitialPanel, ReloadRequests(InitialPanel))
  }

  /** `setPurchases(data.purchases || [])`, or nothing when the call threw:
      a failed load keeps whatever was shown before. */
  function FinishLoad(panel: Panel, outcome: LoadOutcome<Purchase>): (r: Panel)
    ensures outcome.LoadFailed? ==> r == panel
    ensures outcome.Listed? && outcome.items.Some? ==> r == panel.(purchases := outcome.items.value)
    ensures outcome.Listed? && outcome.items.None? ==> r == panel.(purchases := [])
  {
    match outcome
    case LoadFailed => panel
    case Listed(items) => panel.(purchases := if items.Some? then items.value else [])
  }

  /** `setPrices(data.prices || [])`, or nothing when the call threw. */
  function FinishPriceLoad(panel: Panel, outcome: LoadOutcome<PriceEntry>): (r: Panel)
    ensures outcome.LoadFailed? ==> r == panel
    ensures outcome.Listed? && outcome.items.Some? ==> r == panel.(prices := outcome.items.value)
    ensures outcome.Listed? && outcome.items.None? ==> r == panel.(prices := [])
  {
    match outcome
    case LoadFailed => panel
    case Listed(items) => panel.(prices := if items.Some? then items.value else [])
  }

  /** Choosing a filter. React reruns the effect only when the value
      changes, so choosing the current filter again fetches nothing. */
  function SelectStatus(panel: Panel, status: string): (r: (Panel, seq<Api.Request>))
    ensures r.0 == panel.(selectedStatus := status)
    ensures status == panel.selectedStatus ==> r.1 == []
    ensures status != panel.selectedStatus ==>
              |r.1| == 2 && r.1[0] == PurchasesRequest(r.0) && r.1[1] == Api.GetDiamondPricesAdmin()
              && Api.QueryOf(r.1[0].url) == Some("status=" + status)
  {
    var next := panel.(selectedStatus := status);
    if status == panel.selectedStatus then (next, []) else (next, ReloadRequests(next))
  }

  // ---------------------------------------------------------------------
  // Status updates

  /** An order shows Approve and Reject only when its stored status is
      exactly "Pending". */
  predicate HasControls(p: Purchase) {
    p.status == Some(PendingStatus)
  }

  /** `handleStatusUpdate` up to the awaited call: `loading` is raised and
      the new status goes out with the fixed note. */
  function BeginUpdate(panel: Panel, purchaseId: Value, a: Action): (r: (Panel, Api.Request))
    ensures r.0 == panel.(loading := true)
    ensures r.1.Post? && r.1.url == Api.UpdatePurchaseEndpoint
    ensures Api.Keys(r.1.body) == ["purchase_id", "status", "admin_notes"]
    ensures Api.Lookup(r.1.body, "purchase_id") == purchaseId
    ensures Api.Lookup(r.1.body, "status") == Text(Writes(a))
    ensures Api.Lookup(r.1.body, "admin_notes") == Text(StatusNote)
  {
    (panel.(loading := true), Api.UpdatePurchaseStatus(purchaseId, Text(Writes(a)), Text(StatusNote)))
  }

  /** A click on the `a` button of the `i`-th listed order. The buttons
      exist only for pending orders and are disabled while `loading`. */
  function Click(panel: Panel, i: nat, a: Action): (r: Option<(Panel, Api.Request)>)
    ensures r.Some? <==> i < |panel.purchases| && HasControls(panel.purchases[i]) && !panel.loading
    ensures r.Some? ==> r.value == BeginUpdate(panel, panel.purchases[i].id, a)
  {
    if i < |panel.purchases| && HasControls(panel.purchases[i]) && !panel.loading then
      Some(BeginUpdate(panel, panel.purchases[i].id, a))
    else None
  }

  /** The rest of `handleStatusUpdate`: on success an alert and a reload of
      the list (which is not patched locally), on failure only an alert;
      `finally` lowers `loading` either way. */
  function FinishUpdate(panel: Panel, outcome: UpdateOutcome): (r: (Panel, seq<Effect>))
    ensures r.0 == panel.(loading := false)
    ensures outcome.Acknowledged? ==> r.1 == [Alert(UpdatedAlert), Send(PurchasesRequest(panel))]
    ensures outcome.UpdateFailed? ==> r.1 == [Alert(UpdateErrorPrefix + outcome.message)]
  {
    match outcome
    case Acknowledged => (panel.(loading := false), [Alert(UpdatedAlert), Send(PurchasesRequest(panel))])
    case UpdateFailed(m) => (panel.(loading := false), [Alert(UpdateErrorPrefix + m)])
  }

  /** The requests among a list of effects. */
  function Requests(effects: seq<Effect>): (r: seq<Api.Request>)
    ensures |r| <= |effects|
    ensures forall q :: q in r <==> Send(q) in effects
  {
    if effects == [] then []
    else (if effects[0].Send? then [effects[0].request] else []) + Requests(effects[1..])
  }

  // ---------------------------------------------------------------------
  // Events

  datatype Event =
    | Clicked(index: nat, action: Action)
    | UpdateSettled(outcome: UpdateOutcome)
    | PurchasesLoaded(purchases: LoadOutcome<Purchase>)
    | PricesLoaded(prices: LoadOutcome<PriceEntry>)
    | StatusChosen(status: string)
    | RefreshClicked

  /** One event applied to the panel, with the requests it sends. */
  function Step(panel: Panel, e: Event): (Panel, seq<Api.Request>) {
    match e
    case Clicked(i, a) =>
      (match Click(panel, i, a)
       case None => (panel, [])
       case Some(started) => (started.0, [started.1]))
    case UpdateSettled(outcome) =>
      var finished := FinishUpdate(panel, outcome);
      (finished.0, Requests(finished.1))
    case PurchasesLoaded(outcome) => (FinishLoad(panel, outcome), [])
    case PricesLoaded(outcome) => (FinishPriceLoad(panel, outcome), [])
    case StatusChosen(status) => SelectStatus(panel, status)
    case RefreshClicked => (panel, [PurchasesRequest(panel)])
  }

  /** The requests a sequence of events sends, in order. */
  function Run(panel: Panel, events: seq<Event>): (Panel, seq<Api.Request>)
    decreases |events|
  {
    if events == [] then (panel, [])
    else
      var (next, sent) := Step(panel, events[0]);
      var (last, later) := Run(next, events[1..]);
      (last, sent + later)
  }

  /** What the panel ever writes to the backend: a status update whose new
      status is "Success" or "Failed" and whose note is the fixed one. */
  predicate IsVerdict(r: Api.Request) {
    && r.Post? && r.url == Api.UpdatePurchaseEndpoint
    && (Api.Lookup(r.body, "status") == Text("Success") || Api.Lookup(r.body, "status") == Text("Failed"))
    && Api.Lookup(r.body, "admin_notes") == Text(StatusNote)
  }

  // ---------------------------------------------------------------------
  // Properties

  /** Approve and Reject write different statuses, and neither writes
      "Pending" back. */
  lemma VerdictsAreFinal(a: Action)
    ensures Writes(Approve) == "Success" && Writes(Reject) == "Failed"
    ensures Writes(a) == "Success" || Writes(a) == "Failed"
    ensures Writes(a) != PendingStatus
    ensures Writes(Approve) != Writes(Reject)
  {
  }

  /** The Refresh button re-fetches only the orders, under the current
      filter, and is not disabled while an update is loading; once that
      load settles the panel is what delivering the outcome alone gives. */
  lemma RefreshReloadsOrders(panel: Panel, outcome: LoadOutcome<Purchase>)
    ensures Step(panel, RefreshClicked) == (panel, [PurchasesRequest(panel)])
    ensures Run(panel, [RefreshClicked, PurchasesLoaded(outcome)]) == (FinishLoad(panel, outcome), [PurchasesRequest(panel)])
  {
    var events := [RefreshClicked, PurchasesLoaded(outcome)];
    var none: seq<Api.Request> := [];
    assert events[1..][1..] == [];
    assert none + none == none;
    assert Run(panel, events[1..]) == (FinishLoad(panel, outcome), none);
    assert [PurchasesRequest(panel)] + none == [PurchasesRequest(panel)];
  }

  /** Every write a single step sends is a verdict; the reads it sends are
      GET requests. */
  lemma StepSendsOnlyVerdicts(panel: Panel, e: Event)
    ensures forall r :: r in Step(panel, e).1 ==> r.Get? || IsVerdict(r)
  {
    match e
    case Clicked(i, a) =>
    case UpdateSettled(outcome) =>
      var finished := FinishUpdate(panel, outcome);
      assert forall r :: r in Requests(finished.1) ==> r == PurchasesRequest(panel);
    case PurchasesLoaded(_) =>
    case PricesLoaded(_) =>
    case StatusChosen(status) =>
    case RefreshClicked =>
  }

  /** However the admin uses the panel, the only POSTs it sends are status
      updates to "Success" or "Failed" with the fixed note. */
  lemma {:induction false} RunSendsOnlyVerdicts(panel: Panel, events: seq<Event>)
    ensures forall r :: r in Run(panel, events).1 ==> r.Get? || IsVerdict(r)
    decreases |events|
  {
    if events != [] {
      StepSendsOnlyVerdicts(panel, events[0]);
      RunSendsOnlyVerdicts(Step(panel, events[0]).0, events[1..]);
    }
  }

  /** While an update is in flight (and until it settles) no further update
      can be sent: every button is disabled by `loading`, and no other
      event lowers it. */
  lemma {:induction false} OneUpdateAtATime(panel: Panel, events: seq<Event>)
    requires panel.loading
    requires forall k :: 0 <= k < |events| ==> !events[k].UpdateSettled?
    ensures Run(panel, events).0.loading
    ensures forall r :: r in Run(panel, events).1 ==> r.Get?
    decreases |events|
  {
    if events != [] {
      var next := Step(panel, events[0]).0;
      assert next.loading && forall r :: r in Step(panel, events[0]).1 ==> r.Get?;
      OneUpdateAtATime(next, events[1..]);
    }
  }

  /** An update leaves the panel as it found it, whatever the outcome:
      `loading` is raised and lowered again, the list is not patched. */
  lemma UpdateRestoresPanel(panel: Panel, purchaseId: Value, a: Action, outcome: UpdateOutcome)
    requires !panel.loading
    ensures FinishUpdate(BeginUpdate(panel, purchaseId, a).0, outcome).0 == panel
  {
  }

  /** The list is fetched again if and only if the update succeeded, and
      then under the filter that is selected. */
  lemma ReloadIffSuccess(panel: Panel, outcome: UpdateOutcome)
    ensures |Requests(FinishUpdate(panel, outcome).1)| > 0 <==> outcome.Acknowledged?
    ensures forall r :: r in Requests(FinishUpdate(panel, outcome).1) ==> r == PurchasesRequest(panel)
  {
    var effects := FinishUpdate(panel, outcome).1;
    if outcome.UpdateFailed? {
      assert !effects[0].Send? && effects[1..] == [];
    } else {
      assert effects[1].Send?;
    }
  }

  /** An order without a stored status is listed as "Pending" in the
      purchase history, but the admin panel gives it no controls. */
  lemma StatuslessOrderHasNoControls(p: Purchase)
    requires p.status.None? || p.status == Some("")
    ensures History.StatusOf(p) == PendingStatus
    ensures !HasControls(p)
  {
  }

  /** After a series of loads the panel shows the list the last successful
      load delivered; the failed loads after it leave that list in place. */
  lemma {:induction false} ListIsLastDelivered(panel: Panel, outcomes: seq<LoadOutcome<Purchase>>, k: nat)
    requires k < |outcomes| && outcomes[k].Listed?
    requires forall j :: k < j < |outcomes| ==> outcomes[j].LoadFailed?
    ensures LoadAll(panel, outcomes).purchases == FinishLoad(panel, outcomes[k]).purchases
    decreases |outcomes|
  {
    var last := |outcomes| - 1;
    if last > k {
      LoadAllSnoc(panel, outcomes[..last], outcomes[last]);
      assert outcomes[..last] + [outcomes[last]] == outcomes;
      ListIsLastDelivered(panel, outcomes[..last], k);
    } else {
      LoadAllSnoc(panel, outcomes[..last], outcomes[last]);
      assert outcomes[..last] + [outcomes[last]] == outcomes;
    }
  }

  /** The two loads started on mount, settling in either order, leave the
      same panel: the pending filter, nothing loading, the delivered orders
      and prices, and an empty list for a load that failed or came back empty. */
  lemma MountedPanelShowsDelivered(orders: LoadOutcome<Purchase>, prices: LoadOutcome<PriceEntry>)
    ensures var p := FinishPriceLoad(FinishLoad(Mount().0, orders), prices);
            && p == FinishLoad(FinishPriceLoad(Mount().0, prices), orders)
            && p.selectedStatus == PendingStatus && !p.loading
            && p.purchases == (if orders.Listed? && orders.items.Some? then orders.items.value else [])
            && p.prices == (if prices.Listed? && prices.items.Some? then prices.items.value else [])
  {
  }

  /** Several load outcomes delivered in order. */
  function LoadAll(panel: Panel, outcomes: seq<LoadOutcome<Purchase>>): (r: Panel)
    ensures r.loading == panel.loading && r.selectedStatus == panel.selectedStatus && r.prices == panel.prices
    decreases |outcomes|
  {
    if outcomes == [] then panel else LoadAll(FinishLoad(panel, outcomes[0]), outcomes[1..])
  }

  lemma {:induction false} LoadAllSnoc(panel: Panel, outcomes: seq<LoadOutcome<Purchase>>, o: LoadOutcome<Purchase>)
    ensures LoadAll(panel, outcomes + [o]) == FinishLoad(LoadAll(panel, outcomes), o)
    decreases |outcomes|
  {
    if outcomes != [] {
      assert (outcomes + [o])[1..] == outcomes[1..] + [o];
      LoadAllSnoc(FinishLoad(panel, outcomes[0]), outcomes[1..], o);
    } else {
      assert [o][1..] == [];
    }
  }
}

=== FILE: records.dfy ===
/** The records the storefront receives from the backend. Only the fields
    that some decision of the core reads are kept; display-only fields
    (usernames, dates, game and server ids of an order) are dropped. */
module Records {
  import opened Values

  /** The logged-in user as the login reply delivers it. */
  datatype User = User(id: Value, username: string, isAdmin: Value)

  /** One sellable package of the price catalog. */
  datatype PriceEntry = PriceEntry(id: Value, gameName: Value, serverName: Value, amount: Value, price: Value)

  /** One purchase request (order). Older and newer backends fill either
      `amount` or `diamond_amount`, and may or may not store `price`. */
  datatype Purchase = Purchase(id: Value, amount: Value, diamondAmount: Value, price: Value, status: Option<string>)

  /** The weekly-pass sentinel: the amount is exactly the number 0 or the
      string "0" (strict equality, so "00" or false are not passes). */
  predicate IsPassSentinel(amount: Value) {
    amount == Num(0) || amount == Text("0")
  }
}

=== FILE: routing.dfy ===
/** The application shell: the view named by the URL hash, the screen each
    view renders for the current session, and logging in and out. */
module Routing {
  import opened Values
  import opened Records

  const HomeView := "home"
  const LoginFirst := "Please login first"
  const AccessDenied := "Access denied"

  /** `window.location.hash.substring(1) || 'home'`: the first character
      (the '#') is dropped, and an empty remainder names the home view. */
  function ViewOf(hash: string): (view: string)
    ensures view != ""
    ensures |hash| > 1 ==> view == hash[1..]
    ensures |hash| <= 1 ==> view == HomeView
  {
    var rest := if |hash| >= 1 then hash[1..] else "";
    if rest == "" then HomeView else rest
  }

  /** What the content area shows. */
  datatype Screen =
    | LoginPage
    | RegisterPage
    | HistoryPage(user: User)
    | AdminPage(user: User)
    | HomePage(currentUser: Option<User>)
    | Notice(text: string)

  /** A logged-in user object is truthy; `currentUser?.is_admin` is the
      truthiness of its admin field. */
  predicate IsAdmin(currentUser: Option<User>) {
    currentUser.Some? && Truthy(currentUser.value.isAdmin)
  }

  /** `renderContent`: login and register are open to everyone, history
      needs a user, the admin panel needs an admin, and every other view is
      the home page. */
  function Render(view: string, currentUser: Option<User>): (s: Screen)
    ensures s.AdminPage? <==> view == "admin" && IsAdmin(currentUser)
    ensures s.HistoryPage? <==> view == "history" && currentUser.Some?
    ensures (s.AdminPage? || s.HistoryPage?) ==> currentUser == Some(s.user)
    ensures s == Notice(AccessDenied) <==> view == "admin" && !IsAdmin(currentUser)
    ensures s == Notice(LoginFirst) <==> view == "history" && currentUser.None?
    ensures s.LoginPage? <==> view == "login"
    ensures s.RegisterPage? <==> view == "register"
    ensures s.HomePage? <==> view !in ["login", "register", "history", "admin"]
    ensures s.HomePage? ==> s.currentUser == currentUser
  {
    if view == "login" then LoginPage
    else if view == "register" then RegisterPage
    else if view == "history" then
      (if currentUser.Some? then HistoryPage(currentUser.value) else Notice(LoginFirst))
    else if view == "admin" then
      (if IsAdmin(currentUser) then AdminPage(currentUser.value) else Notice(AccessDenied))
    else HomePage(currentUser)
  }

  /** The session: the current user (`None` for `null`) and the URL hash
      the current view follows. */
  datatype Session = Session(currentUser: Option<User>, hash: string)

  /** What the session shows. */
  function Show(s: Session): Screen {
    Render(ViewOf(s.hash), s.currentUser)
  }

  /** `handleLogin`: the user becomes the current user; the view stays. */
  function Login(s: Session, user: User): (r: Session)
    ensures r.currentUser == Some(user) && r.hash == s.hash
  {
    s.(currentUser := Some(user))
  }

  /** `handleLogout`: no current user, and the hash is reset to empty. */
  function Logout(s: Session): (r: Session)
    ensures r.currentUser.None? && r.hash == ""
  {
    Session(None, "")
  }

  /** Navigating to `#v`. */
  function Navigate(s: Session, view: string): (r: Session)
    ensures r.currentUser == s.currentUser
  {
    s.(hash := "#" + view)
  }

  // ---------------------------------------------------------------------
  // Properties

  /** The hash written for a view names that view again; `#` alone and the
      empty hash name the home view. */
  lemma ViewRoundTrip(view: string)
    requires view != ""
    ensures ViewOf("#" + view) == view
    ensures ViewOf("") == HomeView && ViewOf("#") == HomeView
  {
    assert ("#" + view)[1..] == view;
  }

  /** After logging out the home page shows, without a user, whatever was
      shown before. */
  lemma LogoutShowsHome(s: Session)
    ensures Show(Logout(s)) == HomePage(None)
  {
  }

  /** Logging out undoes logging in: the session is the same whoever had
      logged in, and the admin and history views are closed again. */
  lemma LogoutUndoesLogin(s: Session, user: User)
    ensures Logout(Login(s, user)) == Logout(s)
    ensures Show(Navigate(Logout(Login(s, user)), "admin")) == Notice(AccessDenied)
    ensures Show(Navigate(Logout(Login(s, user)), "history")) == Notice(LoginFirst)
  {
    ViewRoundTrip("admin");
    ViewRoundTrip("history");
  }

  /** Logging in opens the history view for anyone and the admin view for
      admins only, wherever the user navigates next. */
  lemma LoginOpensViews(s: Session, user: User)
    ensures Show(Navigate(Login(s, user), "history")) == HistoryPage(user)
    ensures Show(Navigate(Login(s, user), "admin")).AdminPage? <==> Truthy(user.isAdmin)
  {
    ViewRoundTrip("admin");
    ViewRoundTrip("history");
  }

  /** `handleLoginRedirect` on the storefront sets the hash to "#login":
      the login page shows whoever is logged in. */
  lemma LoginRedirectShowsLogin(s: Session)
    ensures Show(Navigate(s, "login")) == LoginPage
  {
    ViewRoundTrip("login");
  }

  /** The login and register pages ignore the session. */
  lemma PublicViewsIgnoreSession(a: Option<User>, b: Option<User>, view: string)
    requires view == "login" || view == "register"
    ensures Render(view, a) == Render(view, b)
  {
  }
}

=== FILE: storefront.dfy ===
/** The storefront page (src/components/Home.jsx): splitting the catalog into
    the weekly pass and the sorted diamond packages, opening the purchase form,
    and submitting a purchase request.

    React state updates are modelled as pure transitions over one `Form`
    record. The backend call is the boundary: `BeginSubmit` yields the request
    to send, and `FinishSubmit` takes the reply (or the thrown error) back.
    The two-second `setTimeout` after a successful reply is the separate
    step `ClearAfterSuccess`. */
module Storefront {
  import opened Values
  import opened Records
  import Api
  import History

  /** The pass's name, the same label the purchase history gives it. */
  const PassName := History.PassLabel
  /** The gem suffix exactly as Home.jsx stores it: the UTF-8 bytes of
      " \U{1F48E}" decoded as Mac Roman. */
  const GemSuffix := " \U{F8FF}\U{00FC}\U{00ED}\U{00E9}"
  const FillAllFields := "Please fill all fields"
  const SubmittedMessage := "Purchase request submitted successfully!"
  const ErrorPrefix := "Error submitting purchase: "
  /** What V8 reports when `currentUser.id` is read while nobody is logged
      in; other engines word this TypeError differently. */
  const NullUserError := "Cannot read properties of null (reading 'id')"

  // ---------------------------------------------------------------------
  // Catalog presentation

  /** `getPackageName`: the pass's name, or the amount's text followed by
      the gem suffix. */
  function PackageName(e: PriceEntry): (r: string)
    ensures IsPassSentinel(e.amount) ==> r == PassName
    ensures !IsPassSentinel(e.amount) ==> r == Display(e.amount) + GemSuffix
  {
    if IsPassSentinel(e.amount) then PassName else Display(e.amount) + GemSuffix
  }

  /** The package is called "Weekly Pass" exactly when its amount is the
      pass sentinel. */
  lemma {:induction false} PackageNameIsPassExactly(e: PriceEntry)
    ensures PackageName(e) == PassName <==> IsPassSentinel(e.amount)
  {
    if !IsPassSentinel(e.amount) {
      var shown := Display(e.amount) + GemSuffix;
      assert shown[|shown| - 1] == '\U{00E9}';
      assert PassName[|PassName| - 1] == 's';
    }
  }

  /** The storefront and the purchase history classify an amount the same
      way: a package is named "Weekly Pass" exactly when an order for that
      amount is listed with type "Weekly Pass". */
  lemma PassNamingAgreesWithHistory(e: PriceEntry, p: Purchase)
    requires History.PurchaseAmount(p) == e.amount
    ensures PackageName(e) == PassName <==> History.PurchaseType(p) == History.PassLabel
  {
    PackageNameIsPassExactly(e);
    History.ClassificationAgrees(p);
  }

  /** `prices.find(price => price.amount === 0 || price.amount === "0")` */
  function WeeklyPassOf(prices: seq<PriceEntry>): (r: Option<PriceEntry>)
    ensures r.None? ==> forall i :: 0 <= i < |prices| ==> !IsPassSentinel(prices[i].amount)
    ensures r.Some? ==> exists i :: IsFirstPass(prices, i) && prices[i] == r.value
  {
    match FirstPassIndex(prices)
    case None => None
    case Some(i) => Some(prices[i])
  }

  function FirstPassIndex(prices: seq<PriceEntry>): (r: Option<nat>)
    ensures r.None? ==> forall i :: 0 <= i < |prices| ==> !IsPassSentinel(prices[i].amount)
    ensures r.Some? ==> IsFirstPass(prices, r.value)
  {
    if prices == [] then None
    else if IsPassSentinel(prices[0].amount) then Some(0)
    else
      match FirstPassIndex(prices[1..])
      case None => None
      case Some(i) => Some(i + 1)
  }

  /** Index `i` holds the first pass entry of the catalog. */
  ghost predicate IsFirstPass(prices: seq<PriceEntry>, i: int) {
    && 0 <= i < |prices|
    && IsPassSentinel(prices[i].amount)
    && forall j :: 0 <= j < i ==> !IsPassSentinel(prices[j].amount)
  }

  /** `prices.filter(price => price.amount !== 0 && price.amount !== "0")` */
  function NonPass(prices: seq<PriceEntry>): (r: seq<PriceEntry>)
    ensures forall e :: e in r <==> e in prices && !IsPassSentinel(e.amount)
    ensures |r| + PassCount(prices) == |prices|
  {
    if prices == [] then []
    else (if IsPassSentinel(prices[0].amount) then [] else [prices[0]]) + NonPass(prices[1..])
  }

  /** How many catalog entries carry the pass sentinel. */
  function PassCount(prices: seq<PriceEntry>): nat {
    if prices == [] then 0
    else (if IsPassSentinel(prices[0].amount) then 1 else 0) + PassCount(prices[1..])
  }

  /** The comparator `a.amount - b.amount` compares amounts as numbers;
      an amount that is not a numeral is ordered as 0. */
  function SortKey(e: PriceEntry): int {
    match ToNumber(e.amount)
    case Some(n) => n
    case None => 0
  }

  ghost predicate SortedByAmount(s: seq<PriceEntry>) {
    forall i, j :: 0 <= i < j < |s| ==> SortKey(s[i]) <= SortKey(s[j])
  }

  /** Inserts `x` before the first entry whose amount is not smaller. */
  function Insert(x: PriceEntry, s: seq<PriceEntry>): (r: seq<PriceEntry>)
    requires SortedByAmount(s)
    ensures SortedByAmount(r)
    ensures forall y :: y in r <==> y == x || y in s
    ensures multiset(r) == multiset(s) + multiset{x}
  {
    if s == [] || SortKey(x) <= SortKey(s[0]) then
      SortedCons(x, s);
      [x] + s
    else
      var tail := Insert(x, s[1..]);
      assert s == [s[0]] + s[1..];
      assert forall y :: y in tail ==> SortKey(s[0]) <= SortKey(y);
      SortedCons(s[0], tail);
      [s[0]] + tail
  }

  /** An entry no larger than every entry of a sorted list may go in front. */
  lemma SortedCons(a: PriceEntry, t: seq<PriceEntry>)
    requires SortedByAmount(t)
    requires t != [] ==> SortKey(a) <= SortKey(t[0])
    ensures SortedByAmount([a] + t)
  {
    var r := [a] + t;
    forall i, j | 0 <= i < j < |r|
      ensures SortKey(r[i]) <= SortKey(r[j])
    {
      if i == 0 {
        assert r[j] == t[j - 1];
      } else {
        assert r[i] == t[i - 1] && r[j] == t[j - 1];
      }
    }
  }

  /** `.sort((a, b) => a.amount - b.amount)` */
  function SortByAmount(s: seq<PriceEntry>): (r: seq<PriceEntry>)
    ensures SortedByAmount(r)
    ensures multiset(r) == multiset(s)
  {
    if s == [] then []
    else
      assert s == [s[0]] + s[1..];
      Insert(s[0], SortByAmount(s[1..]))
  }

  /** `diamondPackages`: the non-pass entries, ascending by amount. */
  function DiamondPackages(prices: seq<PriceEntry>): (r: seq<PriceEntry>)
    ensures SortedByAmount(r)
    ensures multiset(r) == multiset(NonPass(prices))
    ensures forall e :: e in r <==> e in prices && !IsPassSentinel(e.amount)
  {
    var r := SortByAmount(NonPass(prices));
    assert forall e :: e in r <==> e in multiset(NonPass(prices));
    r
  }

  /** The page shows the first pass entry on top and every other kind of
      entry among the diamond packages. The two together show every catalog
      entry exactly once if and only if the catalog has at most one pass
      entry; further pass entries are never shown. */
  lemma CatalogSplit(prices: seq<PriceEntry>)
    ensures forall e :: e in prices ==> (IsPassSentinel(e.amount) <==> e !in DiamondPackages(prices))
    ensures WeeklyPassOf(prices).Some? <==> PassCount(prices) > 0
    ensures |DiamondPackages(prices)| + (if WeeklyPassOf(prices).Some? then 1 else 0) == |prices|
            <==> PassCount(prices) <= 1
  {
    var d := DiamondPackages(prices);
    assert |d| == |multiset(d)| == |multiset(NonPass(prices))| == |NonPass(prices)|;
    PassCountPositive(prices);
  }

  lemma {:induction false} PassCountPositive(prices: seq<PriceEntry>)
    ensures PassCount(prices) > 0 <==> exists i :: 0 <= i < |prices| && IsPassSentinel(prices[i].amount)
  {
    if prices != [] {
      PassCountPositive(prices[1..]);
      if !IsPassSentinel(prices[0].amount) {
        if exists i :: 0 <= i < |prices[1..]| && IsPassSentinel(prices[1..][i].amount) {
          var i :| 0 <= i < |prices[1..]| && IsPassSentinel(prices[1..][i].amount);
          assert IsPassSentinel(prices[i + 1].amount);
        } else {
          forall i | 0 <= i < |prices|
            ensures !IsPassSentinel(prices[i].amount)
          {
            if i > 0 {
              assert prices[i] == prices[1..][i - 1];
            }
          }
        }
      }
    }
  }

  /** The game whose catalog `loadPrices` asks for, by game name alone. */
  const CatalogGame := "Mobile Legends"

  /** `loadPrices`: the prices endpoint with the game name as the only filter. */
  function CatalogRequest(): (r: Api.Request)
    ensures r.Get? && Api.PathOf(r.url) == Api.PricesEndpoint
    ensures Api.QueryOf(r.url) == Some("game_name=" + CatalogGame)
  {
    Api.GetDiamondPrices(Text(CatalogGame), Undefined)
  }

  // ---------------------------------------------------------------------
  // The purchase form

  datatype Form = Form(
    selected: Option<PriceEntry>,
    modalOpen: bool,
    loginAlert: bool,
    gameId: string,
    serverId: string,
    paymentMethod: string,
    paymentNumber: string,
    paymentName: string,
    isSubmitting: bool,
    message: string)

  const Initial := Form(None, false, false, "", "", "", "", "", false, "")

  /** The five inputs the form requires. */
  datatype Input = GameId | ServerId | PaymentMethod | PaymentNumber | PaymentName

  /** Typing into (or choosing) one input. */
  function Edit(f: Form, input: Input, text: string): Form {
    match input
    case GameId => f.(gameId := text)
    case ServerId => f.(serverId := text)
    case PaymentMethod => f.(paymentMethod := text)
    case PaymentNumber => f.(paymentNumber := text)
    case PaymentName => f.(paymentName := text)
  }

  /** The inputs a purchase needs and the buy, cancel and submit steps leave alone. */
  predicate SameInputs(f: Form, g: Form) {
    && f.gameId == g.gameId && f.serverId == g.serverId && f.paymentMethod == g.paymentMethod
    && f.paymentNumber == g.paymentNumber && f.paymentName == g.paymentName
  }

  /** `handleBuyClick`: without a user only the login alert is raised; with
      one, the package is selected, the form opens, and the message and the
      three payment inputs are cleared, but the game and server ids are kept. */
  function BuyClick(f: Form, user: Option<User>, pkg: PriceEntry): (r: Form)
    ensures user.None? ==> r == f.(loginAlert := true)
    ensures user.Some? ==> r.selected == Some(pkg) && r.modalOpen && r.message == ""
    ensures user.Some? ==> r.paymentMethod == "" && r.paymentNumber == "" && r.paymentName == ""
    ensures user.Some? ==> r.gameId == f.gameId && r.serverId == f.serverId
    ensures user.Some? ==> r.loginAlert == f.loginAlert
    ensures r.isSubmitting == f.isSubmitting
  {
    if user.None? then f.(loginAlert := true)
    else f.(selected := Some(pkg), modalOpen := true, message := "", paymentMethod := "",
            paymentNumber := "", paymentName := "")
  }

  /** `handleLoginRedirect` and the alert's close button both hide the
      alert and change nothing else on the form. The redirect also sets the
      hash to "#login", which leaves the storefront for the login page
      (`Routing.LoginRedirectShowsLogin`). */
  function DismissLoginAlert(f: Form): (r: Form)
    ensures !r.loginAlert
    ensures r.(loginAlert := f.loginAlert) == f
  {
    f.(loginAlert := false)
  }

  /** Dismissing the alert undoes what a Buy click without a user raised. */
  lemma DismissUndoesLoggedOutClick(f: Form, pkg: PriceEntry)
    ensures DismissLoginAlert(BuyClick(f, None, pkg)) == DismissLoginAlert(f)
  {
  }

  /** The Cancel button; it is disabled while a submission is in flight. */
  function Cancel(f: Form): (r: Form)
    ensures f.isSubmitting ==> r == f
    ensures !f.isSubmitting ==> r == f.(modalOpen := false)
  {
    if f.isSubmitting then f else f.(modalOpen := false)
  }

  /** The check at the top of `handlePurchaseSubmit`. */
  predicate FieldsFilled(f: Form) {
    f.gameId != "" && f.serverId != "" && f.paymentMethod != "" && f.paymentNumber != "" && f.paymentName != ""
  }

  /** What a started submission did before awaiting the backend. */
  datatype Begin =
    | Rejected(form: Form)                       // validation failed; nothing sent
    | Sent(form: Form, request: Api.Request)     // the request is in flight
    | ThrewEarly(form: Form)                     // building the request threw; nothing sent

  /** The reply to the purchase request. */
  datatype Reply = Replied(message: Value) | Threw(errorMessage: string)

  /** The buy request for the form's current inputs: it names the buyer and
      the package by id and carries the four typed fields as text. */
  function PurchaseRequest(f: Form, user: User, pkg: PriceEntry): (r: Api.Request)
    ensures r.Post? && r.url == Api.BuyEndpoint
    ensures Api.Lookup(r.body, "userId") == user.id
    ensures Api.Lookup(r.body, "packageId") == pkg.id
    ensures Api.Lookup(r.body, "gameId") == Text(f.gameId)
    ensures Api.Lookup(r.body, "serverId") == Text(f.serverId)
    ensures Api.Lookup(r.body, "paymentNumber") == Text(f.paymentNumber)
    ensures Api.Lookup(r.body, "paymentName") == Text(f.paymentName)
  {
    Api.BuyDiamonds(user.id, pkg.id, Text(f.gameId), Text(f.serverId), Text(f.paymentNumber), Text(f.paymentName))
  }

  /** The form on first render is closed, empty and idle. A logged-in
      user's first Buy click opens it with empty inputs, so confirming
      straight away is rejected and sends nothing. */
  lemma FreshFormRejectsConfirm(user: User, pkg: PriceEntry)
    ensures !Initial.modalOpen && !Initial.isSubmitting && !Initial.loginAlert && Initial.selected.None?
    ensures var form := BuyClick(Initial, Some(user), pkg);
            && form.modalOpen && form.selected == Some(pkg)
            && ConfirmClick(form, Some(user)) == Some(Rejected(form.(message := FillAllFields)))
  {
  }

  /** The payment method is required on the form but never sent. */
  lemma PaymentMethodNotSent(f: Form, user: User, pkg: PriceEntry)
    ensures Api.Lookup(PurchaseRequest(f, user, pkg).body, "paymentMethod") == Undefined
  {
    Api.BuyDiamondsOmitsPaymentMethod(user.id, pkg.id, Text(f.gameId), Text(f.serverId),
                                      Text(f.paymentNumber), Text(f.paymentName));
  }

  /** `handlePurchaseSubmit` up to the awaited backend call. With an empty
      input it only sets "Please fill all fields". Otherwise it raises
      `isSubmitting`, clears the message, and sends the request; the handler
      itself never looks at `isSubmitting`. */
  function BeginSubmit(f: Form, user: Option<User>): (b: Begin)
    ensures b.Rejected? <==> !FieldsFilled(f)
    ensures b.Rejected? ==> b.form == f.(message := FillAllFields)
    ensures b.Sent? <==> FieldsFilled(f) && user.Some? && f.selected.Some?
    ensures b.Sent? ==> b.form == f.(isSubmitting := true, message := "")
    ensures b.Sent? ==> b.request == PurchaseRequest(f, user.value, f.selected.value)
    ensures b.ThrewEarly? ==> b.form == f.(message := ErrorPrefix + NullUserError, isSubmitting := false)
  {
    if !FieldsFilled(f) then Rejected(f.(message := FillAllFields))
    else
      var busy := f.(isSubmitting := true, message := "");
      if user.Some? && f.selected.Some? then Sent(busy, PurchaseRequest(f, user.value, f.selected.value))
      else ThrewEarly(FinishSubmit(busy, Threw(NullUserError)))
  }

  /** The rest of `handlePurchaseSubmit` once the call settles: the message
      reports the outcome and `finally` lowers `isSubmitting` at once, with
      no grace period. The inputs and the open form are left as they were. */
  function FinishSubmit(f: Form, reply: Reply): (r: Form)
    ensures !r.isSubmitting
    ensures SameInputs(f, r) && r.modalOpen == f.modalOpen && r.selected == f.selected
    ensures r.loginAlert == f.loginAlert
    ensures reply.Replied? && Truthy(reply.message) ==> r.message == Display(reply.message)
    ensures reply.Replied? && !Truthy(reply.message) ==> r.message == SubmittedMessage
    ensures reply.Threw? ==> r.message == ErrorPrefix + reply.errorMessage
  {
    match reply
    case Replied(m) => f.(message := if Truthy(m) then Display(m) else SubmittedMessage, isSubmitting := false)
    case Threw(e) => f.(message := ErrorPrefix + e, isSubmitting := false)
  }

  /** The deferred step two seconds after a successful reply: the form closes
      and the inputs and message are cleared. */
  function ClearAfterSuccess(f: Form): (r: Form)
    ensures !r.modalOpen && r.message == "" && !FieldsFilled(r)
    ensures r.gameId == "" && r.serverId == "" && r.paymentMethod == ""
    ensures r.paymentNumber == "" && r.paymentName == ""
    ensures r.isSubmitting == f.isSubmitting && r.selected == f.selected && r.loginAlert == f.loginAlert
  {
    f.(modalOpen := false, gameId := "", serverId := "", paymentMethod := "",
       paymentNumber := "", paymentName := "", message := "")
  }

  /** The Confirm button: it exists only while the form is open and is
      disabled while `isSubmitting` is set, which is the only protection
      against a second submission. */
  function ConfirmClick(f: Form, user: Option<User>): (r: Option<Begin>)
    ensures (!f.modalOpen || f.isSubmitting) <==> r.None?
    ensures r.Some? ==> r.value == BeginSubmit(f, user)
  {
    if !f.modalOpen || f.isSubmitting then None else Some(BeginSubmit(f, user))
  }

  // ---------------------------------------------------------------------
  // Events

  datatype Event =
    | BuyClicked(user: Option<User>, pkg: PriceEntry)
    | Edited(input: Input, text: string)
    | ConfirmClicked(user: Option<User>)
    | CancelClicked
    | ReplyArrived(reply: Reply)
    | ClearTimerFired
    | LoginAlertDismissed

  /** One event applied to the form, with the request it sends, if any. */
  function Step(f: Form, e: Event): (Form, Option<Api.Request>) {
    match e
    case BuyClicked(user, pkg) => (BuyClick(f, user, pkg), None)
    case Edited(input, text) => (Edit(f, input, text), None)
    case ConfirmClicked(user) =>
      (match ConfirmClick(f, user)
       case None => (f, None)
       case Some(Rejected(g)) => (g, None)
       case Some(Sent(g, request)) => (g, Some(request))
       case Some(ThrewEarly(g)) => (g, None))
    case CancelClicked => (Cancel(f), None)
    case ReplyArrived(reply) => (FinishSubmit(f, reply), None)
    case ClearTimerFired => (ClearAfterSuccess(f), None)
    case LoginAlertDismissed => (DismissLoginAlert(f), None)
  }

  /** The requests a sequence of events sends, in order. */
  function Run(f: Form, events: seq<Event>): (Form, seq<Api.Request>)
    decreases |events|
  {
    if events == [] then (f, [])
    else
      var (g, sent) := Step(f, events[0]);
      var (h, later) := Run(g, events[1..]);
      (h, Sends(sent) + later)
  }

  /** An open form always has a package selected. */
  predicate ModalHasPackage(f: Form) {
    f.modalOpen ==> f.selected.Some?
  }

  /** Every event keeps an open form's package selected, so a logged-in
      user's valid submission always reaches the backend. */
  lemma StepKeepsPackage(f: Form, e: Event)
    requires ModalHasPackage(f)
    ensures ModalHasPackage(Step(f, e).0)
    ensures e.ConfirmClicked? && e.user.Some? && f.modalOpen && !f.isSubmitting && FieldsFilled(f)
            ==> Step(f, e).1.Some?
  {
  }

  /** A submission with an empty input is rejected locally: no request, and
      `isSubmitting` is untouched. */
  lemma EmptyInputSendsNothing(f: Form, user: Option<User>)
    requires !FieldsFilled(f)
    ensures Step(f, ConfirmClicked(user)).1.None?
    ensures Step(f, ConfirmClicked(user)).0.isSubmitting == f.isSubmitting
    ensures f.modalOpen && !f.isSubmitting ==> Step(f, ConfirmClicked(user)).0.message == FillAllFields
  {
  }

  /** While a submission is in flight the disabled Confirm button sends
      nothing, although the handler itself would send again. */
  lemma InFlightGuardIsTheButton(f: Form, user: Option<User>)
    requires f.isSubmitting
    ensures Step(f, ConfirmClicked(user)) == (f, None)
    ensures FieldsFilled(f) && user.Some? && f.selected.Some? ==> BeginSubmit(f, user).Sent?
  {
  }

  /** There is no grace period: as soon as any reply arrives the form, still
      open and still filled in, sends the identical request again on the next
      Confirm click, before the deferred clear has run. */
  lemma NoGracePeriod(f: Form, user: User, reply: Reply)
    requires f.modalOpen && !f.isSubmitting && FieldsFilled(f) && f.selected.Some?
    ensures var first := BeginSubmit(f, Some(user));
            var settled := FinishSubmit(first.form, reply);
            && first.Sent?
            && ConfirmClick(settled, Some(user)) == Some(Sent(settled.(isSubmitting := true, message := ""), first.request))
  {
    var first := BeginSubmit(f, Some(user));
    var settled := FinishSubmit(first.form, reply);
    SameInputsSameRequest(f, settled, user, f.selected.value);
  }

  /** The requests sent by the first event of a run, as a list. */
  function Sends(sent: Option<Api.Request>): seq<Api.Request> {
    if sent.Some? then [sent.value] else []
  }

  /** A run is its first step followed by the run of the rest. */
  lemma RunUnfolds(f: Form, e: Event, rest: seq<Event>)
    ensures Run(f, [e] + rest).0 == Run(Step(f, e).0, rest).0
    ensures Run(f, [e] + rest).1 == Sends(Step(f, e).1) + Run(Step(f, e).0, rest).1
  {
    assert ([e] + rest)[1..] == rest;
  }

  /** A double submission as an event sequence: from any filled-in open
      form, confirm, any reply, confirm again sends the same purchase twice. */
  lemma {:induction false} DoubleSubmissionTrace(f: Form, user: User, reply: Reply)
    requires f.modalOpen && !f.isSubmitting && FieldsFilled(f) && f.selected.Some?
    ensures Run(f, [ConfirmClicked(Some(user)), ReplyArrived(reply), ConfirmClicked(Some(user))]).1
            == [PurchaseRequest(f, user, f.selected.value), PurchaseRequest(f, user, f.selected.value)]
  {
    var request := PurchaseRequest(f, user, f.selected.value);
    var confirm := ConfirmClicked(Some(user));
    var f1 := f.(isSubmitting := true, message := "");
    StepSends(f, user);
    var f2 := FinishSubmit(f1, reply);
    StepReply(f1, reply);
    SameInputsSameRequest(f, f2, user, f.selected.value);
    StepSends(f2, user);
    RunUnfolds(f2, confirm, []);
    assert [confirm] + [] == [confirm];
    RunUnfolds(f1, ReplyArrived(reply), [confirm]);
    RunUnfolds(f, confirm, [ReplyArrived(reply), confirm]);
    assert [confirm] + [ReplyArrived(reply), confirm] == [confirm, ReplyArrived(reply), confirm];
    assert [ReplyArrived(reply)] + [confirm] == [ReplyArrived(reply), confirm];
  }

  /** Confirming a filled-in open form that is not busy sends its request. */
  lemma StepSends(f: Form, user: User)
    requires f.modalOpen && !f.isSubmitting && FieldsFilled(f) && f.selected.Some?
    ensures Step(f, ConfirmClicked(Some(user)))
            == (f.(isSubmitting := true, message := ""), Some(PurchaseRequest(f, user, f.selected.value)))
  {
  }

  /** A reply only settles the submission. */
  lemma StepReply(f: Form, reply: Reply)
    ensures Step(f, ReplyArrived(reply)) == (FinishSubmit(f, reply), None)
  {
  }

  /** The request depends on the form only through its inputs. */
  lemma SameInputsSameRequest(f: Form, g: Form, user: User, pkg: PriceEntry)
    requires SameInputs(f, g)
    ensures PurchaseRequest(f, user, pkg) == PurchaseRequest(g, user, pkg)
  {
  }

  /** After a successful reply the inputs stay until the deferred clear,
      which empties them so a later Confirm is rejected locally. */
  lemma ClearedFormIsRejected(f: Form, user: Option<User>, m: Value)
    ensures SameInputs(f, FinishSubmit(f, Replied(m)))
    ensures var cleared := ClearAfterSuccess(FinishSubmit(f, Replied(m)));
            !cleared.modalOpen && ConfirmClick(cleared, user).None? && BeginSubmit(cleared, user).Rejected?
  {
  }
}

=== FILE: values.dfy ===
/** JavaScript scalar values as the backend's JSON delivers them, and the few
    coercions the storefront relies on: truthiness, `??`, loose `==`, template
    literal rendering, `String(n)`, `Number(s)` and `padStart`.

    Numbers are integers: ids, diamond amounts and MMK prices are whole
    numbers. Floating point, NaN arithmetic and objects are not modelled. */
module Values {

  datatype Option<+T> = None | Some(value: T)

  /** A JSON scalar, or a field that is absent (`Undefined`). */
  datatype Value = Undefined | Null | Bool(b: bool) | Num(n: int) | Text(s: string)

  /** `v === undefined || v === null` */
  predicate Nullish(v: Value) {
    v.Undefined? || v.Null?
  }

  /** JavaScript truthiness: `undefined`, `null`, `false`, `0` and `""` are falsy. */
  predicate Truthy(v: Value) {
    match v
    case Undefined => false
    case Null => false
    case Bool(b) => b
    case Num(n) => n != 0
    case Text(s) => s != ""
  }

  /** `a ?? b` */
  function Coalesce(a: Value, b: Value): Value {
    if Nullish(a) then b else a
  }

  predicate IsDigit(c: char) {
    '0' <= c <= '9'
  }

  predicate AllDigits(s: string) {
    forall i :: 0 <= i < |s| ==> IsDigit(s[i])
  }

  function DigitChar(d: nat): (c: char)
    requires d < 10
    ensures IsDigit(c)
  {
    "0123456789"[d]
  }

  function DigitValue(c: char): nat
    requires IsDigit(c)
  {
    c as int - '0' as int
  }

  /** The decimal numeral of a natural number, without leading zeros. */
  function Numeral(n: nat): (r: string)
    ensures |r| >= 1 && AllDigits(r)
    ensures r[0] == '0' ==> n == 0
  {
    if n < 10 then [DigitChar(n)] else Numeral(n / 10) + [DigitChar(n % 10)]
  }

  /** The value of a string of decimal digits; leading zeros are allowed. */
  function DigitsValue(s: string): nat
    requires AllDigits(s)
  {
    if s == [] then 0 else DigitsValue(s[..|s| - 1]) * 10 + DigitValue(s[|s| - 1])
  }

  /** `String(n)` for an integer. */
  function NumberToString(n: int): string {
    if n < 0 then "-" + Numeral(-n) else Numeral(n)
  }

  /** `Number(s)` for the numeral forms the model covers: the empty string
      (which JavaScript reads as 0), digits, and a minus sign followed by
      digits. `None` stands for NaN. */
  function StringToNumber(s: string): Option<int> {
    if s == "" then Some(0)
    else if s[0] == '-' && |s| > 1 && AllDigits(s[1..]) then Some(0 - DigitsValue(s[1..]))
    else if AllDigits(s) then Some(DigitsValue(s) as int)
    else None
  }

  /** `Number(v)`; `None` stands for NaN. */
  function ToNumber(v: Value): Option<int> {
    match v
    case Undefined => None
    case Null => Some(0)
    case Bool(b) => Some(if b then 1 else 0)
    case Num(n) => Some(n)
    case Text(s) => StringToNumber(s)
  }

  /** Loose equality `a == b` (the IsLooselyEqual algorithm of ECMA-262)
      restricted to scalars: `null` and `undefined` equal only each other,
      two strings compare as strings, everything else compares as numbers,
      and NaN equals nothing. */
  predicate LooseEq(a: Value, b: Value) {
    if Nullish(a) || Nullish(b) then Nullish(a) && Nullish(b)
    else if a.Text? && b.Text? then a.s == b.s
    else ToNumber(a).Some? && ToNumber(a) == ToNumber(b)
  }

  /** What a template literal `${v}` produces. */
  function Display(v: Value): string {
    match v
    case Undefined => "undefined"
    case Null => "null"
    case Bool(b) => if b then "true" else "false"
    case Num(n) => NumberToString(n)
    case Text(s) => s
  }

  /** `s.padStart(width, [c])` with a one-character pad string. */
  function PadStart(s: string, width: nat, c: char): (r: string)
    ensures |r| == if |s| >= width then |s| else width
    ensures r[|r| - |s|..] == s
    ensures forall i :: 0 <= i < |r| - |s| ==> r[i] == c
  {
    if |s| >= width then s else seq(width - |s|, _ => c) + s
  }

  /** Loose equality is symmetric, so `p.amount == amount` and
      `amount == p.amount` select the same catalog entries. */
  lemma LooseEqSymmetric(a: Value, b: Value)
    ensures LooseEq(a, b) <==> LooseEq(b, a)
  {
  }

  /** Reading back a numeral gives the number it was written from. */
  lemma {:induction false} NumeralRoundTrip(n: nat)
    ensures DigitsValue(Numeral(n)) == n
  {
    if n >= 10 {
      var init := Numeral(n / 10);
      var s := init + [DigitChar(n % 10)];
      assert s[..|s| - 1] == init;
      NumeralRoundTrip(n / 10);
    }
  }

  /** `Number(String(n)) === n` for every integer. */
  lemma {:induction false} NumberToStringRoundTrip(n: int)
    ensures StringToNumber(NumberToString(n)) == Some(n)
  {
    var s := NumberToString(n);
    if n < 0 {
      var digits := Numeral(-n);
      assert s == "-" + digits;
      assert s[1..] == digits;
      NumeralRoundTrip(-n);
      assert s[0] == '-' && |s| > 1;
    } else {
      assert s == Numeral(n);
      NumeralRoundTrip(n);
      assert IsDigit(s[0]);
    }
  }

  /** A number and its own decimal string are loosely equal: an amount the
      backend serialised as `"100"` matches a catalog amount `100`. */
  lemma NumberLooselyEqualsItsString(n: int)
    ensures LooseEq(Num(n), Text(NumberToString(n)))
    ensures LooseEq(Text(NumberToString(n)), Num(n))
  {
    NumberToStringRoundTrip(n);
  }

  /** Leading zeros do not change the value of a digit string. */
  lemma {:induction false} LeadingZerosValue(k: nat, s: string)
    requires AllDigits(s)
    ensures AllDigits(seq(k, _ => '0') + s)
    ensures DigitsValue(seq(k, _ => '0') + s) == DigitsValue(s)
  {
    var z := seq(k, _ => '0');
    var t := z + s;
    assert AllDigits(t) by {
      forall i | 0 <= i < |t|
        ensures IsDigit(t[i])
      {
        if i >= k {
          assert t[i] == s[i - k];
        }
      }
    }
    if s == [] {
      assert t == z;
      ZerosValue(k);
    } else {
      var init := s[..|s| - 1];
      assert t[..|t| - 1] == z + init;
      LeadingZerosValue(k, init);
    }
  }

  lemma {:induction false} ZerosValue(k: nat)
    ensures AllDigits(seq(k, _ => '0'))
    ensures DigitsValue(seq(k, _ => '0')) == 0
  {
    var z := seq(k, _ => '0');
    if k > 0 {
      assert z[..k - 1] == seq(k - 1, _ => '0');
      ZerosValue(k - 1);
    }
  }
}
